=== FILE: README.md ===
# flask-blog entry store, modelled in Dafny

This project models the core of a small Flask blog (`app.py`): the entry
store and the indexes derived from it. It covers four tables.

- **Entries**: id, title, slug, content, published flag, timestamp.
- **BlogEntryTag rows**: an entry id and a tag name.
- **Tag rows**: a tag and its counter; the tag is unique.
- **Full-text search documents**: one per entry.

The model covers the write path and the read path.

- **Write path**: the slug and tag normaliser, the validation and tag
  parsing of the create/edit form, and `Entry.save` with its
  search-document and tag-counter updates. Each save runs as one atomic
  transition that either yields new tables or fails with IntegrityError.
- **Read path**: the public and draft listings, full-text search, the
  detail lookup for visitors and logged-in users, the tag page, and the
  dict logic of the `clean_querystring` template filter.

The state is one immutable `Db` value and every operation is a pure
function over it. The model follows the code as written, quirks included:

- tag counters go up on every save;
- association rows are never removed;
- the counter update and the existence check use the raw tag strings,
  while new Tag rows use the normalised string;
- a title with no word character gets the empty slug.

Modules, one per concern:

- `Results` (`results.dfy`): `Option` and `Result`.
- `Text` (`text.dfy`): Python 2 character classes. `\w` is ASCII,
  whitespace is the set `unicode.isspace` accepts, and `lower()` is
  modelled as far as `\w` can observe it.
- `Slug` (`slug.dfy`): the normaliser `re.sub('[^\w]+', '-', s.lower()).strip('-')`.
- `Strings` (`strings.dfy`): `strip()`, `split(', ')`, `split()` and `join`.
- `Sorting` (`sorting.dfy`): `ORDER BY … DESC`.
- `Store` (`store.dfy`): the tables and `Entry.save`.
- `StoreFacts` (`store.dfy`): the table invariant and the facts about `save`.
- `Queries` (`queries.dfy`): the read side.
- `Views` (`views.dfy`): `_create_or_edit`, `create`, `edit` and `clean_querystring`.

Points where `app.py` behaves in ways a reader might not expect, and
which the model keeps:

- **Transaction scope.** `_create_or_edit` runs the whole `entry.save()`
  inside `database.atomic()` (app.py:277). An IntegrityError from any of
  the four tables therefore rolls all of them back, and
  `Views.CreateOrEdit` returns the old tables.
- **Empty slug.** A title with no word character, such as all
  punctuation, is stored with the slug `""` (`Views.CreateAcceptsEmptySlug`).
- **Tag page.** The tag page lists drafts as well as published entries
  (`Queries.ByTag`).
- **Tag counters.** Counters are never decremented, and every save
  increments them again (`StoreFacts.SaveCountsTags`,
  `Views.EditCountsTagsAgain`).
- **Blank search.** A query without words selects `Entry.id == 0`
  (app.py:163), with no `published` filter. SQLite never hands out id 0,
  so on the tables the write path produces this is empty
  (`Queries.BlankQueryFindsNothing`).
- **Normaliser order.** The title is lower-cased first and the runs of
  non-word characters are replaced afterwards (app.py:96).

## Model

| member | source | states |
|---|---|---|
| Text.LowerChar | app.py:96 | `lower()` on one character: ASCII capitals become the matching small letters, the result is never an ASCII capital, and it is a word character exactly when the input is one or is U+0130 or U+212A (which lower to `i` and `k`) |
| Slug.LeadingDashes | app.py:96 | the prefix `lstrip('-')` removes is all hyphens and is followed by a non-hyphen or the end |
| Slug.TrailingDashes | app.py:96 | the suffix `rstrip('-')` removes is all hyphens and is preceded by a non-hyphen or the start |
| Slug.WordRuns | app.py:96 | the runs between the matches of `[^\w]+` are non-empty and all word characters, and the first starts where the input starts with a word character |
| Slug.WordRunsKeepsWordChars | app.py:96 | the runs, concatenated, are exactly the word characters of the input, in order |
| Slug.WordRunsEmptyIff | app.py:96 | there is no run exactly when the input has no word character |
| Slug.CollapseRuns | app.py:96 | `re.sub('[^\w]+', '-', s)`: the output keeps every word character of the input in order, holds otherwise only hyphens, is empty exactly when the input is, starts with a hyphen exactly when the input starts with a non-word character, and never has two hyphens in a row |
| Slug.CollapseRunsJoin | app.py:96 | the substitution equals the word runs joined by single hyphens, with one hyphen more at the start exactly when the input starts with a non-word character, and one more at the end exactly when it ends with non-word characters after some word character |
| Slug.StripDashes | app.py:96 | `strip('-')` is exactly the slice of the input between its leading hyphens and a suffix of nothing but hyphens, and the slice neither starts nor ends with a hyphen |
| Slug.Normalize | app.py:96 | every normalised title or tag has slug shape: only a-z, 0-9, `_` and `-`, no hyphen at either end, no two adjacent hyphens. Its word characters are those of the lower-cased input, in order |
| Slug.NormalizeJoinsWordRuns | app.py:96 | for every input, the normaliser returns the maximal runs of word characters of the lower-cased input joined by single hyphens, which fixes where every hyphen goes |
| Slug.NormalizeFixesSlug | app.py:96 | a string that already has slug shape is returned unchanged |
| Slug.NormalizeIdempotent | app.py:96 | normalising twice gives the same result as normalising once |
| Slug.NormalizeEmptyIff | app.py:96 | the result is empty exactly when the input has no ASCII letter, digit or underscore and neither of the two characters that lower to one |
| Slug.NormalizeTwoWords | app.py:96 | two words separated and followed by punctuation become the lower-cased words joined by one hyphen, with the trailing run dropped |
| Slug.NormalizeWord | app.py:144 | a single word is only lower-cased |
| Slug.HelloWorldSlug | app.py:96 | the title "Hello, World!" gets slug "hello-world" |
| Strings.LeadingSpace | app.py:269 | the characters `lstrip()` removes are all whitespace and stop at the first non-whitespace character |
| Strings.TrailingSpace | app.py:269 | the characters `rstrip()` removes are all whitespace and stop at the last non-whitespace character |
| Strings.StripSpace | app.py:269 | `strip()` leaves no whitespace at either end, and gives "" exactly when the input is all whitespace |
| Strings.StripSpaceIsSlice | app.py:269 | `strip()` returns a contiguous piece of its input, and only whitespace lies outside it |
| Strings.SplitOnSeparator | app.py:269 | `split(', ')` returns at least one piece, and no piece contains the separator |
| Strings.JoinSplitOnSeparator | app.py:269 | joining the pieces of `split(', ')` back with `", "` gives the original string |
| Strings.SplitJoinOnSeparator | app.py:269 | splitting the `", "`-join of separator-free pieces gives the pieces back |
| Strings.SplitOnSpace | app.py:160 | `split()` returns non-empty runs that contain no whitespace |
| Strings.SplitOnSpaceKeepsCharacters | app.py:160 | the runs of `split()`, concatenated, are the input's non-whitespace characters in order |
| Strings.SplitOnSpaceEmptyIff | app.py:160 | `split()` returns no run exactly when the input is all whitespace |
| Strings.SplitOnSpaceJoin | app.py:165 | splitting the single-space join of words gives the words back |
| Sorting.SortDesc | app.py:181 | `ORDER BY … DESC`: the output is a permutation of the rows in which the key never increases |
| Store.NextId | app.py:97 | the rowid SQLite assigns on insert exceeds every existing id; it is 1 for an empty table and one more than the largest id otherwise |
| Store.MaxId | app.py:97 | the largest id of a non-empty table is one of its ids and no id exceeds it |
| Store.SlugFor | app.py:95-96 | a set slug is kept; an empty one is replaced by the normalised title, which has slug shape and the title's word characters |
| Store.DocText | app.py:126-127 | the document text is the title, the content and the comma-joined raw tags on three lines |
| Store.WriteEntry | app.py:97 | the INSERT or UPDATE of the entry row fails exactly on a slug clash with another row (UNIQUE slug, app.py:71). An insert appends the row under a fresh id; an update rewrites the row with that id and leaves the others alone |
| Store.FirstDoc | app.py:116-121 | finds the first search document of an entry, or reports that it has none |
| Store.UpdateSearchIndex | app.py:112-128 | afterwards the entry has a document with the new text. An existing document is overwritten in place and a missing one is appended. Other entries' documents are untouched, and at most one document per entry is kept |
| Store.CreateMissing | app.py:142-146 | on success, the tag rows gain exactly the normalised tags that were not found by the existence check, each with count 1, and old rows keep their counts |
| Store.CreateMissingFailsIff | app.py:142-146 | the creation loop fails exactly when a tag to create already has a row (UNIQUE tag, app.py:200) or appears twice among those created |
| Store.UpdateTags | app.py:130-148 | `update_tags` fails exactly on a Tag unique clash. Otherwise rows named by a raw tag gain one, new normalised tags start at 1, and every other row is unchanged |
| Store.Save | app.py:93-110 | `Entry.save` fails with IntegrityError exactly when the slug clashes or the tag creation clashes |
| StoreFacts.WriteEntryKeepsKeys | app.py:71 | a successful entry write keeps ids and slugs unique and adds only the written id |
| StoreFacts.SavePreservesWellFormed | app.py:93-110 | a successful save of a new or an existing entry keeps the table invariant. The invariant: positive unique ids, unique slugs, one document per entry, every document and association row belonging to an entry, all counters at least 1 |
| StoreFacts.IdsStayPositive | app.py:97 | a save adds only its own id, which is a fresh rowid or an existing id, so ids stay at 1 or above |
| StoreFacts.SaveWritesEntry | app.py:95-97 | the written row carries the submitted fields. A non-empty slug is kept and an empty one is derived from the title. A create appends under a fresh id; an update rewrites in place |
| StoreFacts.SaveAppendsEntryTags | app.py:101-103 | a save appends one association row per raw tag, named with the normalised tag, and removes none |
| StoreFacts.SaveRewritesSearchDoc | app.py:112-128 | after a save the entry has exactly one document, holding its title, content and raw tags. An old document is replaced, not duplicated, and other documents are untouched |
| StoreFacts.SaveCountsTags | app.py:134-148 | after a save the tag rows are the old ones plus the normalised new tags. Rows matching a raw tag count one more, new rows start at 1, and the rest are unchanged |
| Queries.WithPublished | app.py:151-156 | the `published == flag` filter keeps exactly the entries with that flag |
| Queries.Public | app.py:151-152 | `public()` holds exactly the published entries |
| Queries.Drafts | app.py:155-156 | `drafts()` holds exactly the unpublished entries |
| Queries.PublicDraftsPartition | app.py:151-156 | `public()` and `drafts()` together hold every entry exactly as often as the table does |
| Queries.IndexListing | app.py:246 | the home page lists exactly the published entries, newest first |
| Queries.DraftsListing | app.py:299 | the drafts page lists exactly the unpublished entries, newest first |
| Queries.ListingsPartition | app.py:299 | the two listings together show every entry once |
| Queries.FirstWithSlug | app.py:310 | `get()` by slug finds an entry with that slug exactly when one exists |
| Queries.Lookup | app.py:304-310 | the detail page finds only visible entries (all of them when logged in, published ones otherwise), and answers 404 exactly when no visible entry has the slug |
| Queries.LookupFindsTheEntry | app.py:304-310 | with unique slugs, the detail page shows the one entry holding the slug whenever it is visible |
| Queries.TaggedIds | app.py:335 | the id list fails exactly when a matching association row points to a missing entry; otherwise it holds exactly the ids of entries with a row of that name |
| Queries.WithIds | app.py:336 | `id << ids` keeps exactly the entries whose id is listed, each as often as it is in the table, however often its id is listed |
| Queries.ByTag | app.py:335-336 | the tag page fails with DoesNotExist exactly when a row with that name points to a missing entry. Otherwise it lists exactly the entries, drafts included, with an association row named exactly `tag_name`, each as often as it is in the table |
| Queries.ByTagSucceeds | app.py:335 | on consistent tables no association row points to a missing entry, so the tag page never raises DoesNotExist |
| Queries.ByTagListsEachOnce | app.py:335-336 | on consistent tables the tag page succeeds and lists each entry at most once, however many association rows name it |
| Queries.StripNonEmpty | app.py:160 | `[w.strip() for w in words if w.strip()]` keeps only non-empty words with no whitespace at either end, and returns a list of whitespace-free words unchanged |
| Queries.QueryWords | app.py:160 | the words of a query are exactly the whitespace-separated runs of `split()`: the strip and the filter change nothing |
| Queries.JoinMatches | app.py:172-180 | the join yields exactly the (document, entry, score) triples where the entry owns the document, is published and matches; with one document per entry id and unique entry ids, no triple occurs twice |
| Queries.JoinOne | app.py:177-180 | the rows joined to one document are the published entry rows that own it, each as often as it occurs in the table, when the document matches |
| Queries.Search | app.py:158-181 | a query with no words selects the entries with id 0, drafts included. Otherwise the words are joined with single spaces, and the results are exactly the published entries whose document matches, in non-increasing score order, with no row repeated when documents and ids are unique |
| Queries.SearchListsEachOnce | app.py:172-181 | on consistent tables no two rows of a search result belong to the same entry |
| Queries.BlankQueryFindsNothing | app.py:160-163 | an empty or all-whitespace query selects the entries with id 0; on consistent tables, whose ids start at 1, that is no entry |
| Queries.NoIdZero | app.py:163 | `where(Entry.id == 0)` selects nothing from a table whose ids are all positive |
| Queries.SearchSkipsDrafts | app.py:179 | the matches branch never shows a draft; the blank branch has no `published` filter, but on consistent tables it is empty, so no draft is shown |
| Queries.SearchStringKeepsWords | app.py:165 | the string passed to MATCH has the same words as the query |
| Queries.Index | app.py:242-246 | the home page lists entries exactly when `q` is absent or empty. The listing is the published entries, each as often as stored, newest first. Otherwise it is the search result, which on consistent tables shows no draft |
| Queries.BlankSearchShowsEmptyPage | app.py:242-244 | a whitespace-only `q` gives a search page of the entries with id 0 instead of the listing; on consistent tables that page is empty |
| Views.FormTags | app.py:269 | the tag list is never empty, no tag contains ", ", and joining the tags with ", " gives back the stripped field, so this is the split at every separator |
| Views.Fill | app.py:265-269 | missing title or content becomes empty. The entry is published exactly when the checkbox value is non-empty. The tags rejoin to the stripped field and none contains ", ". Id, slug and timestamp are kept |
| Views.CreateOrEdit | app.py:263-289 | a missing tags field is a server error, and empty title or content is refused. The save is refused as a title clash exactly when the slug or tag creation clashes. A successful save commits exactly the tables `Entry.save` produces, every other outcome leaves all four tables unchanged, and a save redirects to the detail page exactly when published |
| Views.NewEntry | app.py:291-294 | the entry `create` starts from has no id, so its save is an INSERT, and no slug, so the slug comes from the submitted title |
| Views.Create | app.py:291-294 | a successful create adds exactly one entry; anything else changes nothing |
| Views.Stored | app.py:313-317 | the entry `edit` loads keeps its id; writing it back unchanged reproduces the row exactly when its slug is set or its title normalises to "" |
| Views.Edit | app.py:313-317 | edit answers 404 exactly when no entry (draft or not) has the slug. A successful edit keeps the number of entries; anything else changes nothing |
| Views.SaveStoresEntry | app.py:97 | the entry a successful save returns is a row of the new table |
| Views.CreatePreservesWellFormed | app.py:291-294 | `create` keeps the table invariant |
| Views.EditPreservesWellFormed | app.py:313-317 | `edit` keeps the table invariant |
| Views.CreateRedirectFindsEntry | app.py:282-286 | after a create, the redirect target shows the entry just written. The detail page finds it even for a visitor when published |
| Views.EditRedirectFindsEntry | app.py:282-286 | after an edit, the redirect target shows the rewritten entry |
| Views.EditKeepsSlug | app.py:95-96 | the slug is set once: editing an entry with a non-empty slug keeps it whatever the new title |
| Views.EditDerivesMissingSlug | app.py:95-96 | what `save` does for a stored entry whose slug is empty: it gets one derived from the new title. Flask's `/<slug>/edit/` route never matches an empty slug, so no request reaches this case; it describes `save` |
| Views.CreateAcceptsEmptySlug | app.py:96 | a title without word characters is saved with the empty slug |
| Views.EditAppendsEntryTags | app.py:101-103 | an edit appends the association rows again and keeps the old ones |
| Views.EditCountsTagsAgain | app.py:134-135 | re-saving with a tag already present under its raw spelling counts it again |
| Views.BlankTagsFieldGivesEmptyTag | app.py:269 | an empty or all-whitespace tags field yields the single tag "" |
| Views.RawTagSpellingClash | app.py:142-146 | a tag whose normalised form has a row while its raw form has none makes the tag update fail |
| Views.EditWithRawSpellingRollsBack | app.py:274-280 | saving with such a tag is answered as a title clash and leaves the tables unchanged |
| Views.AnnounceNormalized | app.py:144 | "Announce" is stored as "announce", so it is such a spelling |
| Views.PopAll | app.py:352-353 | popping each listed key leaves exactly the other keys with their values |
| Views.CleanQuerystring | app.py:351-354 | the new arguments are the old ones without the removed keys, overridden by the new values |
| Views.CleanQuerystringIdempotent | app.py:351-354 | applying the filter again with the same arguments changes nothing |
| Views.CleanQuerystringKeepsOthers | app.py:351-354 | replacing `page` keeps every other argument |

## Left out

- Markdown, code highlighting and oEmbed rendering (app.py:77-91, app.py:357-359) are foreign libraries that need the network.
- Flask routing, the login check, the session, flash messages, templates and `object_list` pagination are web plumbing. The login state is a `loggedIn` flag, and GET requests, which only render a template, are not modelled.
- The `list_all_tags` filter and the `/tags/` page (app.py:319-329) only order the Tag table for display and are not part of this model.
- SQLite full-text matching and `rank()` are parameters of `Queries.Search`: `matches(doc, q)` and an integer `rank(doc, q)`. The floating-point score is modelled as an integer.
- Sorting.SortDesc: SQLite leaves the order of rows with equal keys unspecified; the model fixes one order.
- `datetime.datetime.now` (app.py:74) is the `now` parameter of `Views.Create`.
- Database connection, table creation and `app.run` (app.py:58-60, app.py:365-370) are I/O bootstrapping.
- The `send_email` view (app.py:339-342) only starts a debugger.
- `urllib.urlencode` (app.py:355) is a library call, so `Views.CleanQuerystring` stops at the dict.
- Views.CleanQuerystring: a multi-valued query argument is modelled by its first value, which is what `request_args.items()` yields.
- Text.LowerChar: `unicode.lower()` is modelled only as far as the normaliser can observe it. Characters that lower to another non-word character are kept as they are, since either way they become a hyphen.
- Store.NextId: the 64-bit rowid limit is not modelled. Ids and tag counters are unbounded integers.
- Concurrent requests are not modelled. Each request is one transition of the tables.
- Views.Fill: the published checkbox is stored as true exactly when its value is a non-empty string. The BooleanField conversion itself is not modelled.

=== FILE: queries.dfy ===
/** The read side: `Entry.public`, `Entry.drafts` and `Entry.search`
    (app.py:150-181) and the query logic of the index, drafts, detail and
    tag views (app.py:242-246, app.py:299, app.py:304-310, app.py:335-336).
    Reads never change the tables. */
module Queries {
  import opened Results
  import opened Text
  import opened Strings
  import opened Sorting
  import opened Store
  import opened StoreFacts

  // ------------------------------------------------------------- listings

  /** `Entry.select().where(Entry.published == flag)`, in table order. */
  function WithPublished(entries: seq<Entry>, flag: bool): (r: seq<Entry>)
    ensures forall e :: e in r <==> e in entries && e.published == flag
    ensures |r| <= |entries|
  {
    if |entries| == 0 then []
    else (if entries[0].published == flag then [entries[0]] else []) + WithPublished(entries[1..], flag)
  }

  /** `Entry.public()` (app.py:151-152) */
  function Public(entries: seq<Entry>): (r: seq<Entry>)
    ensures forall e :: e in r <==> e in entries && e.published
  {
    WithPublished(entries, true)
  }

  /** `Entry.drafts()` (app.py:155-156) */
  function Drafts(entries: seq<Entry>): (r: seq<Entry>)
    ensures forall e :: e in r <==> e in entries && !e.published
  {
    WithPublished(entries, false)
  }

  /** Every entry is in exactly one of the two listings, as often as it is
      in the table. */
  lemma {:induction false} PublicDraftsPartition(entries: seq<Entry>)
    ensures multiset(Public(entries)) + multiset(Drafts(entries)) == multiset(entries)
  {
    if |entries| > 0 {
      var e := entries[0];
      var rest := entries[1..];
      PublicDraftsPartition(rest);
      assert entries == [e] + rest;
      assert Public(entries) == (if e.published then [e] else []) + Public(rest);
      assert Drafts(entries) == (if e.published then [] else [e]) + Drafts(rest);
    }
  }

  function Timestamp(e: Entry): int {
    e.timestamp
  }

  /** The home page without a query: `Entry.public().order_by(
      Entry.timestamp.desc())` (app.py:246). */
  function IndexListing(entries: seq<Entry>): (r: seq<Entry>)
    ensures multiset(r) == multiset(Public(entries))
    ensures forall e :: e in r <==> e in entries && e.published
    ensures SortedDesc(r, Timestamp)
  {
    var r := SortDesc(Public(entries), Timestamp);
    assert forall e :: e in r <==> e in multiset(Public(entries));
    r
  }

  /** The drafts page: `Entry.drafts().order_by(Entry.timestamp.desc())`
      (app.py:299). */
  function DraftsListing(entries: seq<Entry>): (r: seq<Entry>)
    ensures multiset(r) == multiset(Drafts(entries))
    ensures forall e :: e in r <==> e in entries && !e.published
    ensures SortedDesc(r, Timestamp)
  {
    var r := SortDesc(Drafts(entries), Timestamp);
    assert forall e :: e in r <==> e in multiset(Drafts(entries));
    r
  }

  /** The two pages between them show every entry once. */
  lemma ListingsPartition(entries: seq<Entry>)
    ensures multiset(IndexListing(entries)) + multiset(DraftsListing(entries)) == multiset(entries)
  {
    PublicDraftsPartition(entries);
  }

  // ---------------------------------------------------------------- detail

  /** `query.where(Entry.slug == slug).get()`: the first row in table order
      with that slug, if any. */
  function FirstWithSlug(entries: seq<Entry>, slug: string): (r: Option<Entry>)
    ensures r.None? <==> forall e :: e in entries ==> e.slug != slug
    ensures r.Some? ==> r.value in entries && r.value.slug == slug
  {
    if |entries| == 0 then None
    else if entries[0].slug == slug then Some(entries[0])
    else
      assert forall e :: e in entries ==> e == entries[0] || e in entries[1..];
      FirstWithSlug(entries[1..], slug)
  }

  /** The lookup of the detail view (app.py:304-310): a logged-in user sees
      any entry, a visitor only published ones; None is the 404. */
  function Lookup(entries: seq<Entry>, slug: string, loggedIn: bool): (r: Option<Entry>)
    ensures r.Some? ==> r.value in entries && r.value.slug == slug && (loggedIn || r.value.published)
    ensures r.None? <==> forall e :: e in entries && e.slug == slug ==> !loggedIn && !e.published
  {
    FirstWithSlug(if loggedIn then entries else Public(entries), slug)
  }

  /** With unique slugs the lookup finds the one entry with that slug, when
      it is visible. */
  lemma LookupFindsTheEntry(entries: seq<Entry>, i: int, loggedIn: bool)
    requires UniqueSlugs(entries)
    requires 0 <= i < |entries|
    requires loggedIn || entries[i].published
    ensures Lookup(entries, entries[i].slug, loggedIn) == Some(entries[i])
  {
    var r := Lookup(entries, entries[i].slug, loggedIn);
    var j :| 0 <= j < |entries| && entries[j] == r.value;
  }

  // ------------------------------------------------------------- tag page

  datatype ReadError = DoesNotExist

  /** Some association row named `tagName` belongs to entry `id`. */
  predicate TaggedWith(entryTags: seq<EntryTag>, id: int, tagName: string) {
    exists k :: 0 <= k < |entryTags| && entryTags[k].entryId == id && entryTags[k].name == tagName
  }

  /** `[x.entry.id for x in BlogEntryTag.select().where(name == tagName)]`
      (app.py:335): dereferencing `x.entry` raises DoesNotExist when the
      row's entry is missing. */
  function TaggedIds(entries: seq<Entry>, entryTags: seq<EntryTag>, tagName: string): (r: Result<seq<int>, ReadError>)
    ensures r.Err? <==> exists k :: 0 <= k < |entryTags| && entryTags[k].name == tagName && !HasId(entries, entryTags[k].entryId)
    ensures r.Ok? ==> forall id :: id in r.value <==> TaggedWith(entryTags, id, tagName)
  {
    if |entryTags| == 0 then Ok([])
    else
      var row := entryTags[0];
      assert forall k :: 1 <= k < |entryTags| ==> entryTags[k] == entryTags[1..][k - 1];
      match TaggedIds(entries, entryTags[1..], tagName)
      case Err(e) => Err(e)
      case Ok(ids) =>
        if row.name != tagName then Ok(ids)
        else if !HasId(entries, row.entryId) then Err(DoesNotExist)
        else Ok([row.entryId] + ids)
  }

  /** `Entry.select().where(Entry.id << ids)`, in table order: each entry
      whose id is listed appears as often as it is in the table, however
      many times its id is listed. */
  function WithIds(entries: seq<Entry>, ids: seq<int>): (r: seq<Entry>)
    ensures forall e :: e in r <==> e in entries && e.id in ids
    ensures forall e :: multiset(r)[e] == if e.id in ids then multiset(entries)[e] else 0
  {
    if |entries| == 0 then []
    else
      assert entries == [entries[0]] + entries[1..];
      (if entries[0].id in ids then [entries[0]] else []) + WithIds(entries[1..], ids)
  }

  /** The tag page (app.py:335-336): every entry, drafts included, that has
      an association row whose name equals `tagName` exactly, each as often
      as it is in the table; DoesNotExist when a matching row points to a
      missing entry. */
  function ByTag(db: Db, tagName: string): (r: Result<seq<Entry>, ReadError>)
    ensures r.Err? <==> exists k :: 0 <= k < |db.entryTags| && db.entryTags[k].name == tagName
                                    && !HasId(db.entries, db.entryTags[k].entryId)
    ensures r.Ok? ==> forall e :: e in r.value <==> e in db.entries && TaggedWith(db.entryTags, e.id, tagName)
    ensures r.Ok? ==> forall e ::
      multiset(r.value)[e] == if TaggedWith(db.entryTags, e.id, tagName) then multiset(db.entries)[e] else 0
  {
    match TaggedIds(db.entries, db.entryTags, tagName)
    case Err(e) => Err(e)
    case Ok(ids) => Ok(WithIds(db.entries, ids))
  }

  /** On consistent tables the tag page never fails. */
  lemma ByTagSucceeds(db: Db, tagName: string)
    requires WellFormed(db)
    ensures ByTag(db, tagName).Ok?
  {
  }

  /** On consistent tables the tag page lists each entry at most once, even
      though every save appends the entry's association rows again. */
  lemma ByTagListsEachOnce(db: Db, tagName: string)
    requires WellFormed(db)
    ensures ByTag(db, tagName).Ok?
    ensures forall e :: multiset(ByTag(db, tagName).value)[e] <= 1
  {
    UniqueIdsOccurOnce(db.entries);
  }

  /** With unique ids no entry occurs twice in the table. */
  lemma {:induction false} UniqueIdsOccurOnce(entries: seq<Entry>)
    requires UniqueIds(entries)
    ensures forall e :: multiset(entries)[e] <= 1
  {
    if |entries| > 0 {
      var rest := entries[1..];
      assert UniqueIds(rest) by {
        forall i, j | 0 <= i < j < |rest|
          ensures rest[i].id != rest[j].id
        {
          assert rest[i] == entries[i + 1] && rest[j] == entries[j + 1];
        }
      }
      UniqueIdsOccurOnce(rest);
      assert entries == [entries[0]] + rest;
      assert entries[0] !in rest by {
        forall j | 0 <= j < |rest|
          ensures rest[j] != entries[0]
        {
          assert rest[j] == entries[j + 1];
        }
      }
    }
  }

  // ---------------------------------------------------------------- search

  /** Non-empty, with no whitespace at either end. */
  predicate Trimmed(w: string) {
    |w| > 0 && !IsSpace(w[0]) && !IsSpace(w[|w| - 1])
  }

  /** `[w.strip() for w in words if w.strip()]` (app.py:160): keeps the
      stripped non-empty words, and changes nothing in a list of words that
      already have no whitespace. */
  function StripNonEmpty(words: seq<string>): (r: seq<string>)
    ensures |r| <= |words|
    ensures forall k :: 0 <= k < |r| ==> Trimmed(r[k])
    ensures (forall k :: 0 <= k < |words| ==> IsWord(words[k])) ==> r == words
  {
    if |words| == 0 then []
    else
      var w := StripSpace(words[0]);
      assert IsWord(words[0]) ==> w == words[0] by {
        if IsWord(words[0]) {
          StripSpaceNoop(words[0]);
        }
      }
      assert words == [words[0]] + words[1..];
      assert w != "" ==> Trimmed(w);
      (if w != "" then [w] else []) + StripNonEmpty(words[1..])
  }

  /** The words of a search query (app.py:160). The strip and the filter
      in the comprehension have no effect: the words are exactly the
      whitespace-separated runs of the query. */
  function QueryWords(query: string): (r: seq<string>)
    ensures r == SplitOnSpace(query)
  {
    StripNonEmpty(SplitOnSpace(query))
  }

  /** A search result row: the document, the entry joined to it and its
      rank. */
  datatype Hit = Hit(doc: FtsDoc, entry: Entry, score: int)

  function Score(h: Hit): int {
    h.score
  }

  /** The rows the join and filter of `Entry.search` produce
      (app.py:172-180), before ordering: every document joined to its entry,
      kept when the entry is published and the document matches. When no
      two documents share an entry and no two entries share an id, no row
      occurs twice. */
  function JoinMatches(fts: seq<FtsDoc>, entries: seq<Entry>, q: string,
                       matches: (FtsDoc, string) -> bool, rank: (FtsDoc, string) -> int): (r: seq<Hit>)
    ensures forall h :: h in r <==>
      h.doc in fts && h.entry in entries && h.entry.id == h.doc.entryId && h.entry.published
      && matches(h.doc, q) && h.score == rank(h.doc, q)
    ensures DistinctDocIds(fts) && UniqueIds(entries) ==> forall h :: multiset(r)[h] <= 1
  {
    if |fts| == 0 then []
    else
      assert forall d :: d in fts <==> d == fts[0] || d in fts[1..];
      var one := JoinOne(fts[0], entries, q, matches, rank);
      var rest := JoinMatches(fts[1..], entries, q, matches, rank);
      if DistinctDocIds(fts) && UniqueIds(entries) then
        UniqueIdsOccurOnce(entries);
        DistinctDocIdsTail(fts);
        AppendOnce(one, rest, fts[0], fts[1..]);
        one + rest
      else one + rest
  }

  /** The rows of one document: one per entry row that owns it, counted
      with the entry's multiplicity in the table. */
  function JoinOne(doc: FtsDoc, entries: seq<Entry>, q: string,
                   matches: (FtsDoc, string) -> bool, rank: (FtsDoc, string) -> int): (r: seq<Hit>)
    ensures forall h :: h in r <==>
      h.doc == doc && h.entry in entries && h.entry.id == doc.entryId && h.entry.published
      && matches(doc, q) && h.score == rank(doc, q)
    ensures forall h ::
      multiset(r)[h] == (if h.doc == doc && h.entry.id == doc.entryId && h.entry.published
                            && matches(doc, q) && h.score == rank(doc, q)
                         then multiset(entries)[h.entry] else 0)
  {
    if |entries| == 0 then []
    else
      var e := entries[0];
      assert forall x :: x in entries <==> x == e || x in entries[1..];
      assert entries == [e] + entries[1..];
      (if e.id == doc.entryId && e.published && matches(doc, q) then [Hit(doc, e, rank(doc, q))] else [])
        + JoinOne(doc, entries[1..], q, matches, rank)
  }

  /** Dropping the first document keeps the documents distinct, and the
      first one does not occur again. */
  lemma DistinctDocIdsTail(fts: seq<FtsDoc>)
    requires |fts| > 0 && DistinctDocIds(fts)
    ensures DistinctDocIds(fts[1..]) && fts[0] !in fts[1..]
  {
    var rest := fts[1..];
    forall i, j | 0 <= i < j < |rest|
      ensures rest[i].entryId != rest[j].entryId
    {
      assert rest[i] == fts[i + 1] && rest[j] == fts[j + 1];
    }
    forall j | 0 <= j < |rest|
      ensures rest[j] != fts[0]
    {
      assert rest[j] == fts[j + 1];
    }
  }

  /** Rows of one document followed by rows of other documents: a row
      occurring at most once in each part occurs at most once in all. */
  lemma AppendOnce(one: seq<Hit>, rest: seq<Hit>, doc: FtsDoc, others: seq<FtsDoc>)
    requires forall h :: h in one ==> h.doc == doc
    requires forall h :: multiset(one)[h] <= 1
    requires forall h :: h in rest ==> h.doc in others
    requires forall h :: multiset(rest)[h] <= 1
    requires doc !in others
    ensures forall h :: multiset(one + rest)[h] <= 1
  {
    forall h
      ensures multiset(one + rest)[h] <= 1
    {
      if h in one {
        assert h !in rest;
      }
    }
  }

  /** What `Entry.search` returns. A query without words gives the plain
      entry query `Entry.select().where(Entry.id == 0)` (app.py:161-163);
      otherwise the ranked join of documents and entries. */
  datatype SearchResult = Plain(entries: seq<Entry>) | Ranked(hits: seq<Hit>)

  /** Every row a search result shows belongs to a published entry. */
  predicate ShowsOnlyPublished(r: SearchResult) {
    match r
    case Plain(es) => forall e :: e in es ==> e.published
    case Ranked(hs) => forall h :: h in hs ==> h.entry.published
  }

  /** `Entry.search(query)` (app.py:158-181). Full-text matching and the
      rank function belong to SQLite and are parameters: `matches(doc, q)`
      is `FTSEntry.match(q)` on one document, `rank(doc, q)` its score. A
      query without words selects the entries with id 0, drafts included;
      otherwise the words are joined with single spaces and the result holds
      exactly the published entries whose document matches, best score
      first. */
  function Search(db: Db, query: string, matches: (FtsDoc, string) -> bool,
                  rank: (FtsDoc, string) -> int): (r: SearchResult)
    ensures SplitOnSpace(query) == [] ==>
      && r.Plain?
      && (forall e :: e in r.entries <==> e in db.entries && e.id == 0)
      && (forall e :: multiset(r.entries)[e] == if e.id == 0 then multiset(db.entries)[e] else 0)
    ensures SplitOnSpace(query) != [] ==>
      var q := Join(SplitOnSpace(query), " ");
      && r.Ranked?
      && (forall h :: h in r.hits <==>
            h.doc in db.fts && h.entry in db.entries && h.entry.id == h.doc.entryId && h.entry.published
            && matches(h.doc, q) && h.score == rank(h.doc, q))
      && SortedDesc(r.hits, Score)
      && (DistinctDocIds(db.fts) && UniqueIds(db.entries) ==> forall h :: multiset(r.hits)[h] <= 1)
  {
    var words := QueryWords(query);
    if |words| == 0 then Plain(WithIds(db.entries, [0]))
    else
      var q := Join(words, " ");
      var hits := JoinMatches(db.fts, db.entries, q, matches, rank);
      var r := SortDesc(hits, Score);
      assert forall h :: h in r <==> h in multiset(hits);
      Ranked(r)
  }

  /** A query that is empty or all whitespace selects the entries with id 0,
      and on consistent tables, where ids start at 1, that is nothing. */
  lemma BlankQueryFindsNothing(db: Db, query: string, matches: (FtsDoc, string) -> bool,
                               rank: (FtsDoc, string) -> int)
    requires forall i :: 0 <= i < |query| ==> IsSpace(query[i])
    ensures Search(db, query, matches, rank) == Plain(WithIds(db.entries, [0]))
    ensures WellFormed(db) ==> Search(db, query, matches, rank) == Plain([])
  {
    SplitOnSpaceEmptyIff(query);
    if WellFormed(db) {
      NoIdZero(db.entries);
    }
  }

  /** Selecting id 0 from a table whose ids are positive gives no row. */
  lemma NoIdZero(entries: seq<Entry>)
    requires PositiveIds(entries)
    ensures WithIds(entries, [0]) == []
  {
  }

  /** Matches never show a draft. Only the blank-query branch, which has no
      `published` filter, could, and on consistent tables it is empty. */
  lemma SearchSkipsDrafts(db: Db, query: string, matches: (FtsDoc, string) -> bool,
                          rank: (FtsDoc, string) -> int)
    ensures Search(db, query, matches, rank).Ranked? ==> ShowsOnlyPublished(Search(db, query, matches, rank))
    ensures WellFormed(db) ==> ShowsOnlyPublished(Search(db, query, matches, rank))
  {
    if WellFormed(db) && SplitOnSpace(query) == [] {
      NoIdZero(db.entries);
    }
  }

  /** On consistent tables a search lists each entry at most once: every
      entry has one search document, so the join yields at most one row per
      entry. */
  lemma SearchListsEachOnce(db: Db, query: string, matches: (FtsDoc, string) -> bool,
                            rank: (FtsDoc, string) -> int)
    requires WellFormed(db)
    ensures var r := Search(db, query, matches, rank);
      r.Ranked? ==> forall i, j :: 0 <= i < j < |r.hits| ==> r.hits[i].entry.id != r.hits[j].entry.id
  {
    var r := Search(db, query, matches, rank);
    if r.Ranked? {
      var hs := r.hits;
      forall i, j | 0 <= i < j < |hs|
        ensures hs[i].entry.id != hs[j].entry.id
      {
        if hs[i].entry.id == hs[j].entry.id {
          assert hs[i] in hs && hs[j] in hs;
          SameIdSameDoc(db.fts, hs[i].doc, hs[j].doc);
          SameIdSameEntry(db.entries, hs[i].entry, hs[j].entry);
          assert hs[i] == hs[j];
          RepeatCounts(hs, i, j);
          assert false;
        }
      }
    }
  }

  lemma SameIdSameDoc(fts: seq<FtsDoc>, a: FtsDoc, b: FtsDoc)
    requires DistinctDocIds(fts) && a in fts && b in fts && a.entryId == b.entryId
    ensures a == b
  {
    var i :| 0 <= i < |fts| && fts[i] == a;
    var j :| 0 <= j < |fts| && fts[j] == b;
    assert !(i < j) && !(j < i);
  }

  lemma SameIdSameEntry(entries: seq<Entry>, a: Entry, b: Entry)
    requires UniqueIds(entries) && a in entries && b in entries && a.id == b.id
    ensures a == b
  {
    var i :| 0 <= i < |entries| && entries[i] == a;
    var j :| 0 <= j < |entries| && entries[j] == b;
    assert !(i < j) && !(j < i);
  }

  /** A value at two positions occurs at least twice. */
  lemma RepeatCounts(s: seq<Hit>, i: nat, j: nat)
    requires i < j < |s| && s[i] == s[j]
    ensures multiset(s)[s[i]] >= 2
  {
    assert s == s[..j] + s[j..];
    assert s[i] in s[..j];
    assert s[j] in s[j..];
  }

  /** The string handed to MATCH has the same words as the query. */
  lemma SearchStringKeepsWords(query: string)
    ensures SplitOnSpace(Join(SplitOnSpace(query), " ")) == SplitOnSpace(query)
  {
    SplitOnSpaceJoin(SplitOnSpace(query));
  }

  /** What the home page shows (app.py:242-246): the search result when the
      `q` argument is a non-empty string, the public listing otherwise. */
  datatype IndexPage = SearchPage(result: SearchResult) | ListPage(entries: seq<Entry>)

  function Index(db: Db, q: Option<string>, matches: (FtsDoc, string) -> bool,
                 rank: (FtsDoc, string) -> int): (r: IndexPage)
    ensures r.ListPage? <==> (q.None? || q == Some(""))
    ensures r.ListPage? ==>
      multiset(r.entries) == multiset(Public(db.entries)) && SortedDesc(r.entries, Timestamp)
    ensures r.ListPage? ==> forall k :: 0 <= k < |r.entries| ==> r.entries[k].published
    ensures r.SearchPage? ==> r.result == Search(db, q.value, matches, rank)
    ensures WellFormed(db) && r.SearchPage? ==> ShowsOnlyPublished(r.result)
  {
    if q.Some? && q.value != "" then
      SearchSkipsDrafts(db, q.value, matches, rank);
      SearchPage(Search(db, q.value, matches, rank))
    else ListPage(IndexListing(db.entries))
  }

  /** A whitespace-only `q` is truthy, so the page searches instead of
      listing: it shows the entries with id 0, which on consistent tables is
      an empty page rather than the listing. */
  lemma BlankSearchShowsEmptyPage(db: Db, q: string, matches: (FtsDoc, string) -> bool,
                                  rank: (FtsDoc, string) -> int)
    requires |q| > 0 && forall i :: 0 <= i < |q| ==> IsSpace(q[i])
    ensures Index(db, Some(q), matches, rank) == SearchPage(Plain(WithIds(db.entries, [0])))
    ensures WellFormed(db) ==> Index(db, Some(q), matches, rank) == SearchPage(Plain([]))
  {
    BlankQueryFindsNothing(db, q, matches, rank);
  }
}

=== FILE: results.dfy ===
/** Optional values and success-or-error results, used for the store's
    lookups (a row that may be missing) and for writes that can raise. */
module Results {

  datatype Option<+T> = None | Some(value: T) {
    /** Python's `x or default` for a value that may be absent. */
    function GetOr(default: T): T {
      match this
      case Some(v) => v
      case None => default
    }
  }

  datatype Result<+T, +E> = Ok(value: T) | Err(error: E)
}

=== FILE: slug.dfy ===
/** The slug and tag normaliser of app.py:96, app.py:102 and app.py:144:
    `re.sub('[^\w]+', '-', s.lower()).strip('-')`. */
module Slug {
  import opened Text

  /** No two adjacent hyphens. */
  predicate NoDoubleDash(t: string) {
    forall i :: 0 <= i < |t| - 1 ==> !(t[i] == '-' && t[i + 1] == '-')
  }

  /** The shape of every value the normaliser can return: lower-case ASCII
      letters, digits, `_` and single hyphens, with no hyphen at either end. */
  predicate IsSlug(t: string) {
    && (forall i :: 0 <= i < |t| ==> IsSlugChar(t[i]))
    && (|t| > 0 ==> t[0] != '-' && t[|t| - 1] != '-')
    && NoDoubleDash(t)
  }

  /** Skips a leading run of non-word characters. */
  function DropNonWord(s: string): (r: string)
    ensures |r| <= |s|
    ensures |r| > 0 ==> IsWordChar(r[0])
  {
    if |s| > 0 && !IsWordChar(s[0]) then DropNonWord(s[1..]) else s
  }

  lemma {:induction false} DropNonWordIsSuffix(s: string)
    ensures DropNonWord(s) == s[|s| - |DropNonWord(s)|..]
  {
    if |s| > 0 && !IsWordChar(s[0]) {
      DropNonWordIsSuffix(s[1..]);
    }
  }

  lemma {:induction false} DropNonWordKeepsWordChars(s: string)
    ensures WordChars(DropNonWord(s)) == WordChars(s)
  {
    if |s| > 0 && !IsWordChar(s[0]) {
      DropNonWordKeepsWordChars(s[1..]);
    }
  }

  /** A non-empty stretch of word characters. */
  predicate IsWordRun(w: string) {
    |w| > 0 && forall i :: 0 <= i < |w| ==> IsWordChar(w[i])
  }

  /** The maximal runs of word characters of `s`, in order: what is left
      between the matches of `[^\w]+`. */
  function WordRuns(s: string): (r: seq<string>)
    ensures forall k :: 0 <= k < |r| ==> IsWordRun(r[k])
    ensures |s| > 0 && IsWordChar(s[0]) ==> |r| > 0 && |r[0]| > 0 && r[0][0] == s[0]
    decreases |s|
  {
    if |s| == 0 then []
    else if !IsWordChar(s[0]) then WordRuns(s[1..])
    else
      var rest := WordRuns(s[1..]);
      if |s| > 1 && IsWordChar(s[1]) then [[s[0]] + rest[0]] + rest[1..]
      else [[s[0]]] + rest
  }

  /** The runs hold every word character of `s` and nothing else. */
  lemma {:induction false} WordRunsKeepsWordChars(s: string)
    ensures Concat(WordRuns(s)) == WordChars(s)
    decreases |s|
  {
    if |s| > 0 {
      var t := s[1..];
      var rest := WordRuns(t);
      WordRunsKeepsWordChars(t);
      assert WordChars(s) == (if IsWordChar(s[0]) then [s[0]] else "") + WordChars(t);
      if !IsWordChar(s[0]) {
        assert WordRuns(s) == rest;
      } else if |s| > 1 && IsWordChar(s[1]) {
        var r := [[s[0]] + rest[0]] + rest[1..];
        assert WordRuns(s) == r;
        assert r[0] == [s[0]] + rest[0] && r[1..] == rest[1..];
        assert Concat(r) == ([s[0]] + rest[0]) + Concat(rest[1..]);
        assert Concat(rest) == rest[0] + Concat(rest[1..]);
      } else {
        var r := [[s[0]]] + rest;
        assert WordRuns(s) == r;
        assert r[0] == [s[0]] && r[1..] == rest;
        assert Concat(r) == [s[0]] + Concat(rest);
      }
    }
  }

  /** There are no runs exactly when `s` has no word character. */
  lemma {:induction false} WordRunsEmptyIff(s: string)
    ensures WordRuns(s) == [] <==> forall i :: 0 <= i < |s| ==> !IsWordChar(s[i])
    decreases |s|
  {
    if |s| > 0 && !IsWordChar(s[0]) {
      WordRunsEmptyIff(s[1..]);
      assert forall i :: 1 <= i < |s| ==> s[i] == s[1..][i - 1];
    }
  }

  /** Leading non-word characters belong to no run. */
  lemma {:induction false} WordRunsDropNonWord(s: string)
    ensures WordRuns(DropNonWord(s)) == WordRuns(s)
  {
    if |s| > 0 && !IsWordChar(s[0]) {
      WordRunsDropNonWord(s[1..]);
    }
  }

  /** `"-"` when `b` holds, else the empty string. */
  function Hyphen(b: bool): string {
    if b then "-" else ""
  }

  predicate StartsNonWord(s: string) {
    |s| > 0 && !IsWordChar(s[0])
  }

  predicate EndsNonWord(s: string) {
    |s| > 0 && !IsWordChar(s[|s| - 1])
  }

  /** What `re.sub('[^\w]+', '-', s)` denotes: the word runs joined by single
      hyphens, with one hyphen more at the start when `s` starts with a
      non-word character and one more at the end when it ends with one after
      some run. (A string with no word character at all becomes one hyphen
      when it is not empty.) */
  function RunsJoined(s: string): string {
    Hyphen(StartsNonWord(s)) + Join(WordRuns(s), "-") + Hyphen(WordRuns(s) != [] && EndsNonWord(s))
  }

  /** A word character followed by the collapse of the rest. */
  lemma CollapseWordStep(s: string, rest: string)
    requires |s| > 0 && IsWordChar(s[0])
    requires rest == RunsJoined(s[1..])
    ensures [s[0]] + rest == RunsJoined(s)
  {
    var t := s[1..];
    if |t| == 0 {
      assert WordRuns(s) == [[s[0]]];
      assert RunsJoined(s) == [s[0]];
    } else if IsWordChar(t[0]) {
      CollapseWordInRun(s, rest);
    } else {
      CollapseWordEndsRun(s, rest);
    }
  }

  /** The last character decides `EndsNonWord` for every non-empty
      suffix. */
  lemma EndsNonWordTail(s: string)
    requires |s| > 1
    ensures EndsNonWord(s) == EndsNonWord(s[1..])
  {
    assert s[|s| - 1] == s[1..][|s| - 2];
  }

  lemma CollapseWordInRun(s: string, rest: string)
    requires |s| > 1 && IsWordChar(s[0]) && IsWordChar(s[1])
    requires rest == RunsJoined(s[1..])
    ensures [s[0]] + rest == RunsJoined(s)
  {
    var t := s[1..];
    var runs := WordRuns(t);
    var j := Join(runs, "-");
    var h := Hyphen(EndsNonWord(s));
    EndsNonWordTail(s);
    assert runs != [] && !StartsNonWord(t);
    assert rest == j + h;
    JoinExtendRun(s);
    assert RunsJoined(s) == [s[0]] + j + h;
    AppendAssoc3([s[0]], j, h);
  }

  /** A word character in front of a run joins that run. */
  lemma JoinExtendRun(s: string)
    requires |s| > 1 && IsWordChar(s[0]) && IsWordChar(s[1])
    ensures WordRuns(s) != []
    ensures Join(WordRuns(s), "-") == [s[0]] + Join(WordRuns(s[1..]), "-")
  {
    var runs := WordRuns(s[1..]);
    assert WordRuns(s) == [[s[0]] + runs[0]] + runs[1..];
    JoinExtendFirst(s[0], runs, "-");
  }

  lemma CollapseWordEndsRun(s: string, rest: string)
    requires |s| > 1 && IsWordChar(s[0]) && !IsWordChar(s[1])
    requires rest == RunsJoined(s[1..])
    ensures [s[0]] + rest == RunsJoined(s)
  {
    EndsNonWordTail(s);
    if WordRuns(s[1..]) == [] {
      CollapseWordLastRun(s, rest);
    } else {
      CollapseWordBeforeRuns(s, rest);
    }
  }

  lemma CollapseWordLastRun(s: string, rest: string)
    requires |s| > 1 && IsWordChar(s[0]) && !IsWordChar(s[1])
    requires WordRuns(s[1..]) == []
    requires rest == RunsJoined(s[1..])
    ensures [s[0]] + rest == RunsJoined(s)
  {
    var t := s[1..];
    assert WordRuns(s) == [[s[0]]];
    assert EndsNonWord(s) by {
      WordRunsEmptyIff(t);
      assert s[|s| - 1] == t[|t| - 1];
    }
    assert rest == "-";
  }

  lemma CollapseWordBeforeRuns(s: string, rest: string)
    requires |s| > 1 && IsWordChar(s[0]) && !IsWordChar(s[1])
    requires WordRuns(s[1..]) != []
    requires EndsNonWord(s) == EndsNonWord(s[1..])
    requires rest == RunsJoined(s[1..])
    ensures [s[0]] + rest == RunsJoined(s)
  {
    var runs := WordRuns(s[1..]);
    var all := [[s[0]]] + runs;
    var j := Join(runs, "-");
    var h := Hyphen(EndsNonWord(s));
    assert WordRuns(s) == all;
    assert all[1..] == runs;
    assert rest == "-" + j + h;
    assert Join(all, "-") == [s[0]] + "-" + j;
    assert RunsJoined(s) == [s[0]] + "-" + j + h;
    AppendAssoc([s[0]], "-", j, h);
  }

  lemma AppendAssoc(a: string, b: string, c: string, d: string)
    ensures a + (b + c + d) == a + b + c + d
  {
  }

  lemma AppendAssoc3(a: string, b: string, c: string)
    ensures a + (b + c) == a + b + c
  {
  }

  /** A run of non-word characters becomes one hyphen before the collapse of
      what follows the run. */
  lemma CollapsePunctuationStep(s: string, rest: string)
    requires |s| > 0 && !IsWordChar(s[0])
    requires rest == RunsJoined(DropNonWord(s[1..]))
    ensures "-" + rest == RunsJoined(s)
  {
    var d := DropNonWord(s[1..]);
    var runs := WordRuns(d);
    assert WordRuns(s) == runs by {
      WordRunsDropNonWord(s[1..]);
    }
    assert runs != [] ==> EndsNonWord(d) == EndsNonWord(s) by {
      if runs != [] {
        assert |d| > 0;
        DropNonWordIsSuffix(s[1..]);
        assert d[|d| - 1] == s[|s| - 1];
      }
    }
    var j := Join(runs, "-");
    var tail := Hyphen(runs != [] && EndsNonWord(s));
    assert rest == j + tail;
    assert RunsJoined(s) == "-" + j + tail;
    AppendAssoc3("-", j, tail);
  }

  /** `re.sub('[^\w]+', '-', s)`: every maximal run of non-word characters
      becomes a single hyphen; word characters are kept in place. */
  function CollapseRuns(s: string): (r: string)
    ensures WordChars(r) == WordChars(s)
    ensures forall i :: 0 <= i < |r| ==> r[i] == '-' || IsWordChar(r[i])
    ensures |r| == 0 <==> |s| == 0
    ensures |s| > 0 ==> (r[0] == '-' <==> !IsWordChar(s[0]))
    ensures NoDoubleDash(r)
    decreases |s|
  {
    if |s| == 0 then ""
    else if IsWordChar(s[0]) then
      [s[0]] + CollapseRuns(s[1..])
    else
      var rest := CollapseRuns(DropNonWord(s[1..]));
      DropNonWordKeepsWordChars(s[1..]);
      assert |rest| > 0 ==> rest[0] != '-';
      "-" + rest
  }

  /** The substitution in closed form: the word runs of `s` joined by single
      hyphens, with one hyphen more at the start exactly when `s` starts with
      a non-word character, and one more at the end exactly when `s` ends
      with a non-word character that follows some word character. */
  lemma {:induction false} CollapseRunsJoin(s: string)
    ensures CollapseRuns(s) == RunsJoined(s)
    decreases |s|
  {
    if |s| > 0 {
      if IsWordChar(s[0]) {
        CollapseRunsJoin(s[1..]);
        CollapseWordStep(s, CollapseRuns(s[1..]));
      } else {
        var d := DropNonWord(s[1..]);
        CollapseRunsJoin(d);
        CollapsePunctuationStep(s, CollapseRuns(d));
      }
    }
  }

  /** Every output character is a hyphen or a character taken from the
      input, so an input without upper-case letters gives an output without
      them. */
  lemma {:induction false} CollapseRunsChars(s: string)
    ensures (forall i :: 0 <= i < |s| ==> !IsUpper(s[i])) ==>
              (forall i :: 0 <= i < |CollapseRuns(s)| ==> !IsUpper(CollapseRuns(s)[i]))
    decreases |s|
  {
    if |s| > 0 {
      if IsWordChar(s[0]) {
        CollapseRunsChars(s[1..]);
      } else {
        var d := DropNonWord(s[1..]);
        CollapseRunsChars(d);
        DropNonWordIsSuffix(s[1..]);
        assert forall i :: 0 <= i < |d| ==> d[i] == s[|s| - |d| + i];
      }
    }
  }

  /** The number of hyphens `lstrip('-')` removes. */
  function LeadingDashes(s: string): (n: nat)
    ensures n <= |s|
    ensures forall i :: 0 <= i < n ==> s[i] == '-'
    ensures n < |s| ==> s[n] != '-'
  {
    if |s| > 0 && s[0] == '-' then 1 + LeadingDashes(s[1..]) else 0
  }

  /** The number of hyphens `rstrip('-')` removes. */
  function TrailingDashes(s: string): (n: nat)
    ensures n <= |s|
    ensures forall i :: |s| - n <= i < |s| ==> s[i] == '-'
    ensures n < |s| ==> s[|s| - 1 - n] != '-'
  {
    if |s| > 0 && s[|s| - 1] == '-' then 1 + TrailingDashes(s[..|s| - 1]) else 0
  }

  /** `lstrip('-')` */
  function TrimLeftDashes(s: string): string {
    s[LeadingDashes(s)..]
  }

  /** `rstrip('-')` */
  function TrimRightDashes(s: string): string {
    s[..|s| - TrailingDashes(s)]
  }

  /** `strip('-')`: the slice of `s` left after its leading hyphens, with
      only hyphens after it, neither starting nor ending with a hyphen. */
  function StripDashes(s: string): (r: string)
    ensures |r| <= |s|
    ensures |r| > 0 ==> r[0] != '-' && r[|r| - 1] != '-'
    ensures LeadingDashes(s) + |r| <= |s| && r == s[LeadingDashes(s)..LeadingDashes(s) + |r|]
    ensures forall i :: LeadingDashes(s) + |r| <= i < |s| ==> s[i] == '-'
  {
    var k := LeadingDashes(s);
    var t := TrimLeftDashes(s);
    var r := TrimRightDashes(t);
    assert |r| > 0 ==> r[0] == s[k] && r[|r| - 1] == t[|t| - 1 - TrailingDashes(t)];
    assert r == s[k..k + |r|];
    assert forall i :: k + |r| <= i < |s| ==> s[i] == t[i - k];
    r
  }

  /** The normaliser: slug of a title (app.py:96) and stored form of a tag
      (app.py:102, app.py:144). Whatever the input, it returns a string of
      slug shape whose word characters are those of the input, lower-cased,
      in order. */
  function Normalize(s: string): (r: string)
    ensures IsSlug(r)
    ensures WordChars(r) == WordChars(Lower(s))
  {
    var c := CollapseRuns(Lower(s));
    CollapseRunsChars(Lower(s));
    StripDashesKeepsShape(c);
    StripDashesKeepsWordChars(c);
    StripDashes(c)
  }

  /** The normaliser in closed form: the maximal runs of word characters of
      the lower-cased input, joined by single hyphens. */
  lemma NormalizeJoinsWordRuns(s: string)
    ensures Normalize(s) == Join(WordRuns(Lower(s)), "-")
  {
    CollapseRunsJoin(Lower(s));
    StripRunsJoined(Lower(s));
  }

  /** `strip('-')` of the collapsed form leaves the runs joined by hyphens. */
  lemma StripRunsJoined(s: string)
    ensures StripDashes(RunsJoined(s)) == Join(WordRuns(s), "-")
  {
    var runs := WordRuns(s);
    var c := RunsJoined(s);
    if runs == [] {
      assert c == Hyphen(StartsNonWord(s));
      assert LeadingDashes(c) == |c|;
    } else {
      var x := Join(runs, "-");
      JoinRunsEnds(runs);
      StripDashesAround(Hyphen(StartsNonWord(s)), x, Hyphen(EndsNonWord(s)));
    }
  }

  /** Joining word runs with hyphens starts and ends with a word character. */
  lemma {:induction false} JoinRunsEnds(runs: seq<string>)
    requires |runs| > 0
    requires forall k :: 0 <= k < |runs| ==> IsWordRun(runs[k])
    ensures var x := Join(runs, "-"); |x| > 0 && IsWordChar(x[0]) && IsWordChar(x[|x| - 1])
  {
    if |runs| > 1 {
      JoinRunsEnds(runs[1..]);
      assert IsWordRun(runs[0]);
    }
  }

  /** `strip('-')` removes hyphens added around a string with no hyphen at
      either end, and nothing more. */
  lemma StripDashesAround(a: string, x: string, b: string)
    requires forall i :: 0 <= i < |a| ==> a[i] == '-'
    requires forall i :: 0 <= i < |b| ==> b[i] == '-'
    requires |x| > 0 && x[0] != '-' && x[|x| - 1] != '-'
    ensures StripDashes(a + x + b) == x
  {
    var y := a + x + b;
    assert y[|a|] == x[0];
    assert LeadingDashes(y) == |a|;
    var t := y[|a|..];
    assert t == x + b;
    assert t[|x| - 1] == x[|x| - 1];
    assert TrailingDashes(t) == |b|;
    assert TrimRightDashes(t) == x;
  }

  /** A contiguous slice keeps the character set and the absence of double
      hyphens. */
  lemma SliceKeepsShape(c: string, a: nat, b: nat)
    requires a <= b <= |c|
    requires forall i :: 0 <= i < |c| ==> c[i] == '-' || (IsWordChar(c[i]) && !IsUpper(c[i]))
    requires NoDoubleDash(c)
    ensures forall i :: 0 <= i < b - a ==> IsSlugChar(c[a..b][i])
    ensures NoDoubleDash(c[a..b])
  {
    var r := c[a..b];
    forall i | 0 <= i < |r| - 1
      ensures !(r[i] == '-' && r[i + 1] == '-')
    {
      assert r[i] == c[a + i] && r[i + 1] == c[a + i + 1];
    }
  }

  /** Stripping the end hyphens of a collapsed string leaves slug shape. */
  lemma StripDashesKeepsShape(c: string)
    requires forall i :: 0 <= i < |c| ==> c[i] == '-' || (IsWordChar(c[i]) && !IsUpper(c[i]))
    requires NoDoubleDash(c)
    ensures IsSlug(StripDashes(c))
  {
    var k := LeadingDashes(c);
    var r := StripDashes(c);
    SliceKeepsShape(c, k, k + |r|);
  }

  /** Stripping hyphens removes no word character. */
  lemma StripDashesKeepsWordChars(c: string)
    ensures WordChars(StripDashes(c)) == WordChars(c)
  {
    TrimLeftKeepsWordChars(c);
    TrimRightKeepsWordChars(TrimLeftDashes(c));
  }

  lemma {:induction false} TrimLeftKeepsWordChars(c: string)
    ensures WordChars(TrimLeftDashes(c)) == WordChars(c)
  {
    if |c| > 0 && c[0] == '-' {
      TrimLeftKeepsWordChars(c[1..]);
      assert TrimLeftDashes(c) == c[1..][LeadingDashes(c[1..])..];
    } else {
      assert TrimLeftDashes(c) == c[0..] == c;
    }
  }

  lemma {:induction false} TrimRightKeepsWordChars(c: string)
    ensures WordChars(TrimRightDashes(c)) == WordChars(c)
  {
    if |c| > 0 && c[|c| - 1] == '-' {
      var init := c[..|c| - 1];
      TrimRightKeepsWordChars(init);
      assert TrimRightDashes(c) == TrimRightDashes(init);
      assert c == init + "-";
      WordCharsAppend(init, "-");
      assert WordChars("-") == "";
    } else {
      assert TrimRightDashes(c) == c[..|c|] == c;
    }
  }

  /** A string that already has slug shape is left as it is. */
  lemma {:induction false} CollapseRunsFixesSlugShape(t: string)
    requires forall i :: 0 <= i < |t| ==> IsSlugChar(t[i])
    requires NoDoubleDash(t)
    ensures CollapseRuns(t) == t
    decreases |t|
  {
    if |t| > 0 {
      CollapseRunsFixesSlugShape(t[1..]);
      assert NoDoubleDash(t[1..]);
      if !IsWordChar(t[0]) {
        assert t[0] == '-';
        if |t| > 1 {
          assert t[1] != '-';
          assert IsWordChar(t[1]);
        }
        assert DropNonWord(t[1..]) == t[1..];
      }
    }
  }

  /** Applied to a value of slug shape the normaliser changes nothing. */
  lemma NormalizeFixesSlug(t: string)
    requires IsSlug(t)
    ensures Normalize(t) == t
  {
    assert Lower(t) == t;
    CollapseRunsFixesSlugShape(t);
  }

  /** The normaliser is idempotent. */
  lemma NormalizeIdempotent(s: string)
    ensures Normalize(Normalize(s)) == Normalize(s)
  {
    NormalizeFixesSlug(Normalize(s));
  }

  /** The normaliser returns "" exactly when its input holds no ASCII
      letter, digit or underscore and neither of the two characters that
      lower-case to one (an all-punctuation title gives slug ""). */
  lemma NormalizeEmptyIff(s: string)
    ensures Normalize(s) == "" <==> forall i :: 0 <= i < |s| ==> !IsWordChar(s[i]) && !LowersToAscii(s[i])
  {
    var r := Normalize(s);
    WordCharsEmptyIff(Lower(s));
    if |r| > 0 {
      assert IsWordChar(r[0]);
      assert WordChars(r) != "";
    }
  }

  /** Lower-casing distributes over concatenation. */
  lemma LowerAppend(a: string, b: string)
    ensures Lower(a + b) == Lower(a) + Lower(b)
  {
  }

  /** Non-word characters in front of `rest` add no run. */
  lemma {:induction false} WordRunsSkip(p: string, rest: string)
    requires forall i :: 0 <= i < |p| ==> !IsWordChar(p[i])
    ensures WordRuns(p + rest) == WordRuns(rest)
    decreases |p|
  {
    if |p| > 0 {
      assert (p + rest)[1..] == p[1..] + rest;
      WordRunsSkip(p[1..], rest);
    } else {
      assert p + rest == rest;
    }
  }

  /** A word followed by the end of the string or by a non-word character is
      one whole run. */
  lemma {:induction false} WordRunsWordThenBreak(w: string, rest: string)
    requires IsWordRun(w)
    requires |rest| == 0 || !IsWordChar(rest[0])
    ensures WordRuns(w + rest) == [w] + WordRuns(rest)
    decreases |w|
  {
    var s := w + rest;
    var t := w[1..];
    assert s[0] == w[0] && s[1..] == t + rest;
    if |t| == 0 {
      assert t + rest == rest;
      assert w == [w[0]];
      assert |s| > 1 ==> s[1] == rest[0];
      assert WordRuns(s) == [[w[0]]] + WordRuns(rest);
    } else {
      WordRunsWordThenBreak(t, rest);
      assert s[1] == t[0];
      assert [w[0]] + t == w;
    }
  }

  /** Two words separated and followed by punctuation, as in a typical
      title: the separator becomes one hyphen and the trailing run
      disappears. */
  lemma NormalizeTwoWords(a: string, p: string, b: string, q: string)
    requires |a| > 0 && |p| > 0 && |b| > 0
    requires forall i :: 0 <= i < |a| ==> IsWordChar(a[i])
    requires forall i :: 0 <= i < |b| ==> IsWordChar(b[i])
    requires forall i :: 0 <= i < |p| ==> !IsWordChar(p[i]) && !LowersToAscii(p[i])
    requires forall i :: 0 <= i < |q| ==> !IsWordChar(q[i]) && !LowersToAscii(q[i])
    ensures Normalize(a + p + b + q) == Lower(a) + "-" + Lower(b)
  {
    var la, lp, lb, lq := Lower(a), Lower(p), Lower(b), Lower(q);
    var l := Lower(a + p + b + q);
    NormalizeJoinsWordRuns(a + p + b + q);
    assert l == la + (lp + (lb + lq)) by {
      LowerAppend(a + p + b, q);
      LowerAppend(a + p, b);
      LowerAppend(a, p);
    }
    assert WordRuns(l) == [la, lb] by {
      assert IsWordRun(la) && IsWordRun(lb);
      assert forall i :: 0 <= i < |lp| ==> !IsWordChar(lp[i]);
      assert forall i :: 0 <= i < |lq| ==> !IsWordChar(lq[i]);
      RunsOfTwoWords(la, lp, lb, lq);
    }
    assert Join([la, lb], "-") == la + "-" + lb by {
      assert [la, lb][1..] == [lb];
    }
  }

  lemma RunsOfTwoWords(a: string, p: string, b: string, q: string)
    requires IsWordRun(a) && IsWordRun(b) && |p| > 0
    requires forall i :: 0 <= i < |p| ==> !IsWordChar(p[i])
    requires forall i :: 0 <= i < |q| ==> !IsWordChar(q[i])
    ensures WordRuns(a + (p + (b + q))) == [a, b]
  {
    assert WordRuns(b + q) == [b] by {
      WordRunsWordThenBreak(b, q);
      WordRunsEmptyIff(q);
    }
    WordRunsSkip(p, b + q);
    WordRunsWordThenBreak(a, p + (b + q));
  }

  /** A single word is only lower-cased. */
  lemma NormalizeWord(a: string)
    requires forall i :: 0 <= i < |a| ==> IsWordChar(a[i])
    ensures Normalize(a) == Lower(a)
  {
    var la := Lower(a);
    NormalizeJoinsWordRuns(a);
    if |la| > 0 {
      WordRunsWordThenBreak(la, "");
      assert la + "" == la;
    }
  }

  /** Example: the title "Hello, World!" gets slug "hello-world". */
  lemma HelloWorldSlug(t: string)
    requires t == "Hello, World!"
    ensures Normalize(t) == "hello-world"
  {
    var a, p, b, q := t[..5], t[5..7], t[7..12], t[12..];
    assert t == a + p + b + q;
    LowerWord(a, "Hello", "hello");
    LowerWord(b, "World", "world");
    assert forall i :: 0 <= i < |p| ==> !IsWordChar(p[i]) && !LowersToAscii(p[i]);
    assert forall i :: 0 <= i < |q| ==> !IsWordChar(q[i]) && !LowersToAscii(q[i]);
    NormalizeTwoWords(a, p, b, q);
    HyphenatedExample(Lower(a), Lower(b));
  }

  lemma HyphenatedExample(x: string, y: string)
    requires x == "hello" && y == "world"
    ensures x + "-" + y == "hello-world"
  {
  }

  /** The two words of the example, lower-cased. */
  lemma LowerWord(w: string, upper: string, lower: string)
    requires (upper == "Hello" && lower == "hello") || (upper == "World" && lower == "world")
    requires w == upper
    ensures Lower(w) == lower
    ensures forall i :: 0 <= i < |w| ==> IsWordChar(w[i])
  {
    var l := Lower(w);
    assert l[0] == lower[0] && l[1] == lower[1] && l[2] == lower[2];
    assert l[3] == lower[3] && l[4] == lower[4];
  }
}

=== FILE: sorting.dfy ===
/** `ORDER BY key DESC` over a query result: a reordering of the rows in
    which the key never increases. SQLite leaves the order of rows with equal
    keys unspecified; this model keeps one particular order for them. */
module Sorting {

  predicate SortedDesc<T>(s: seq<T>, key: T -> int) {
    forall i, j :: 0 <= i < j < |s| ==> key(s[i]) >= key(s[j])
  }

  /** A row whose key is at least that of the head of a sorted sequence can
      be put in front of it. */
  lemma ConsSorted<T>(h: T, rest: seq<T>, key: T -> int)
    requires SortedDesc(rest, key)
    requires |rest| > 0 ==> key(h) >= key(rest[0])
    ensures SortedDesc([h] + rest, key)
  {
    var r := [h] + rest;
    forall i, j | 0 <= i < j < |r|
      ensures key(r[i]) >= key(r[j])
    {
      if i == 0 && j > 1 {
        assert r[j] == rest[j - 1];
      }
    }
  }

  function Insert<T>(x: T, s: seq<T>, key: T -> int): (r: seq<T>)
    requires SortedDesc(s, key)
    ensures |r| == |s| + 1
    ensures r[0] == x || (|s| > 0 && r[0] == s[0])
    ensures SortedDesc(r, key)
    ensures multiset(r) == multiset(s) + multiset{x}
  {
    if |s| == 0 || key(x) >= key(s[0]) then
      ConsSorted(x, s, key);
      [x] + s
    else
      var rest := Insert(x, s[1..], key);
      ConsSorted(s[0], rest, key);
      assert s == [s[0]] + s[1..];
      [s[0]] + rest
  }

  /** The rows of `s` ordered by `key`, largest first. */
  function SortDesc<T>(s: seq<T>, key: T -> int): (r: seq<T>)
    ensures SortedDesc(r, key)
    ensures multiset(r) == multiset(s)
  {
    if |s| == 0 then []
    else
      assert s == [s[0]] + s[1..];
      Insert(s[0], SortDesc(s[1..], key), key)
  }
}

=== FILE: store.dfy ===
/** The four tables behind the blog and `Entry.save` (app.py:69-148,
    app.py:184-201): the entry rows, the entry/tag association rows, the
    tag counters and the full-text documents, and the single write that
    keeps them in step. */
module Store {
  import opened Results
  import opened Text
  import opened Slug

  /** A row of the `entry` table (app.py:69-74). The id is the integer
      primary key SQLite assigns. */
  datatype Entry = Entry(id: int, title: string, slug: string, content: string, published: bool, timestamp: int)

  /** A row of `blogentrytag` (app.py:192-194): an entry id and a tag name. */
  datatype EntryTag = EntryTag(entryId: int, name: string)

  /** A row of the full-text table `ftsentry` (app.py:184-187). */
  datatype FtsDoc = FtsDoc(entryId: int, content: string)

  /** The four tables. Entry, association and document rows are kept in
      rowid order; the tag table is a map because `Tag.tag` is unique
      (app.py:200), so a tag has at most one counter. */
  datatype Db = Db(entries: seq<Entry>, entryTags: seq<EntryTag>, tags: map<string, int>, fts: seq<FtsDoc>)

  /** The in-memory Entry object `save()` is called on: its primary key
      (None before the first insert), the row fields and the list of raw tag
      strings the view attached to it (app.py:265-270). A slug of "" stands
      for both Python's None and the empty string. */
  datatype Draft = Draft(id: Option<int>, title: string, slug: string, content: string, published: bool, timestamp: int, tags: seq<string>)

  /** The only exception the write path raises: a UNIQUE constraint failed. */
  datatype SaveError = IntegrityError

  const EmptyDb: Db := Db([], [], map[], [])

  // ---------------------------------------------------------------- entries

  predicate HasId(entries: seq<Entry>, id: int) {
    exists i :: 0 <= i < |entries| && entries[i].id == id
  }

  /** The largest id in a non-empty table. */
  function MaxId(entries: seq<Entry>): (m: int)
    requires |entries| > 0
    ensures HasId(entries, m)
    ensures forall i :: 0 <= i < |entries| ==> entries[i].id <= m
  {
    if |entries| == 1 then entries[0].id
    else
      var m := MaxId(entries[1..]);
      assert forall i :: 1 <= i < |entries| ==> entries[i] == entries[1..][i - 1];
      if entries[0].id >= m then entries[0].id else m
  }

  /** The rowid SQLite gives the next inserted row of a table with an
      `INTEGER PRIMARY KEY` and no AUTOINCREMENT: one more than the largest
      id, or 1 when the table is empty. */
  function NextId(entries: seq<Entry>): (r: int)
    ensures |entries| == 0 ==> r == 1
    ensures |entries| > 0 ==> HasId(entries, r - 1)
    ensures forall i :: 0 <= i < |entries| ==> entries[i].id < r
    ensures (forall i :: 0 <= i < |entries| ==> entries[i].id >= 1) ==> r >= 1
  {
    if |entries| == 0 then 1 else MaxId(entries) + 1
  }

  /** The slug `save()` writes: the stored one, or, when that is empty, the
      normalised title (app.py:95-96). */
  function SlugFor(d: Draft): (r: string)
    ensures d.slug != "" ==> r == d.slug
    ensures d.slug == "" ==> IsSlug(r) && WordChars(r) == WordChars(Lower(d.title))
  {
    if d.slug == "" then Normalize(d.title) else d.slug
  }

  /** Some row other than the one with id `except` already holds `slug`. */
  predicate SlugHeldByOther(entries: seq<Entry>, slug: string, except: Option<int>) {
    exists i :: 0 <= i < |entries| && entries[i].slug == slug && Some(entries[i].id) != except
  }

  /** Writing the entry row would violate the UNIQUE index on `slug`
      (app.py:71): on insert, any row has the slug; on update of an existing
      row, another row has it. An UPDATE that matches no row checks nothing. */
  predicate SlugConflict(entries: seq<Entry>, d: Draft) {
    match d.id
    case None => SlugHeldByOther(entries, SlugFor(d), None)
    case Some(id) => HasId(entries, id) && SlugHeldByOther(entries, SlugFor(d), Some(id))
  }

  function RowFor(id: int, d: Draft): Entry {
    Entry(id, d.title, SlugFor(d), d.content, d.published, d.timestamp)
  }

  /** `UPDATE entry SET ... WHERE id = ?` */
  function SetRow(entries: seq<Entry>, id: int, row: Entry): (r: seq<Entry>)
    ensures |r| == |entries|
    ensures forall i :: 0 <= i < |r| ==> r[i] == if entries[i].id == id then row else entries[i]
  {
    seq(|entries|, i requires 0 <= i < |entries| => if entries[i].id == id then row else entries[i])
  }

  /** `super(Entry, self).save()` (app.py:97): INSERT when the object has no
      primary key, UPDATE otherwise. Returns the new entry rows and the id
      the rest of the save uses. */
  function WriteEntry(entries: seq<Entry>, d: Draft): (r: Result<(seq<Entry>, int), SaveError>)
    ensures r.Err? <==> SlugConflict(entries, d)
    ensures r.Ok? && d.id.None? ==>
      var id := r.value.1;
      && id == NextId(entries)
      && !HasId(entries, id)
      && r.value.0 == entries + [RowFor(id, d)]
    ensures r.Ok? && d.id.Some? ==>
      && r.value.1 == d.id.value
      && |r.value.0| == |entries|
      && (forall i :: 0 <= i < |entries| ==>
            r.value.0[i] == if entries[i].id == d.id.value then RowFor(d.id.value, d) else entries[i])
  {
    match d.id
    case None =>
      var id := NextId(entries);
      if SlugHeldByOther(entries, SlugFor(d), None) then Err(IntegrityError)
      else Ok((entries + [RowFor(id, d)], id))
    case Some(id) =>
      if !HasId(entries, id) then Ok((entries, id))
      else if SlugHeldByOther(entries, SlugFor(d), Some(id)) then Err(IntegrityError)
      else Ok((SetRow(entries, id, RowFor(id, d)), id))
  }

  // -------------------------------------------------------- association rows

  /** The BlogEntryTag rows one save creates: one per raw tag, in list order,
      named with the normalised tag (app.py:101-103). */
  function TagRows(id: int, raw: seq<string>): (r: seq<EntryTag>)
    ensures |r| == |raw|
    ensures forall k :: 0 <= k < |r| ==> r[k].entryId == id
    ensures forall k :: 0 <= k < |r| ==> r[k] == EntryTag(id, Normalize(raw[k]))
  {
    seq(|raw|, k requires 0 <= k < |raw| => EntryTag(id, Normalize(raw[k])))
  }

  // --------------------------------------------------------- search documents

  /** `'\n'.join((title, content, ','.join(tags)))` (app.py:126-127): the
      raw tag strings, not the normalised ones. */
  function DocText(title: string, content: string, raw: seq<string>): (r: string)
    ensures r == title + "\n" + content + "\n" + Join(raw, ",")
  {
    var tags := Join(raw, ",");
    var parts := [title, content, tags];
    assert parts[1..] == [content, tags];
    assert parts[1..][1..] == [tags];
    assert Join(parts[1..], "\n") == content + "\n" + tags;
    Join(parts, "\n")
  }

  predicate HasDoc(fts: seq<FtsDoc>, id: int) {
    exists k :: 0 <= k < |fts| && fts[k].entryId == id
  }

  /** No two full-text documents belong to the same entry. */
  predicate DistinctDocIds(fts: seq<FtsDoc>) {
    forall i, j :: 0 <= i < j < |fts| ==> fts[i].entryId != fts[j].entryId
  }

  /** `FTSEntry.select().where(FTSEntry.entry_id == id).get()`
      (app.py:116-120): the position of the first document of entry `id`. */
  function FirstDoc(fts: seq<FtsDoc>, id: int): (r: Option<nat>)
    ensures r.None? <==> !HasDoc(fts, id)
    ensures r.Some? ==> r.value < |fts| && fts[r.value].entryId == id
    ensures r.Some? ==> forall k :: 0 <= k < r.value ==> fts[k].entryId != id
  {
    if |fts| == 0 then None
    else if fts[0].entryId == id then Some(0)
    else match FirstDoc(fts[1..], id)
      case None => None
      case Some(k) => Some(k + 1)
  }

  /** `update_search_index` (app.py:112-128): overwrite the entry's document
      if it has one, otherwise insert one. Afterwards the entry has a
      document holding `text`; when documents were one per entry before,
      they still are and the entry's document is the only one with its id;
      documents of other entries are untouched. */
  function UpdateSearchIndex(fts: seq<FtsDoc>, id: int, text: string): (r: seq<FtsDoc>)
    ensures exists k :: 0 <= k < |r| && r[k] == FtsDoc(id, text)
    ensures HasDoc(fts, id) ==> |r| == |fts|
    ensures !HasDoc(fts, id) ==> r == fts + [FtsDoc(id, text)]
    ensures forall k :: 0 <= k < |fts| && fts[k].entryId != id ==> r[k] == fts[k]
    ensures forall k :: 0 <= k < |r| ==> r[k].entryId == id || (k < |fts| && r[k] == fts[k])
    ensures DistinctDocIds(fts) ==> DistinctDocIds(r)
    ensures DistinctDocIds(fts) ==> forall k :: 0 <= k < |r| && r[k].entryId == id ==> r[k] == FtsDoc(id, text)
  {
    match FirstDoc(fts, id)
    case Some(k) =>
      var r := fts[k := FtsDoc(id, text)];
      assert r[k] == FtsDoc(id, text);
      r
    case None =>
      var r := fts + [FtsDoc(id, text)];
      assert r[|fts|] == FtsDoc(id, text);
      r
  }

  // ---------------------------------------------------------------- tag rows

  /** Tag rows whose tag equals one of the raw strings: the rows the counter
      update touches and the `existing_tags` list (app.py:134, app.py:142). */
  function ExistingTags(tags: map<string, int>, raw: seq<string>): set<string> {
    set t | t in tags && t in raw
  }

  /** The normalised form of every raw tag, in list order. */
  function NormalizeAll(raw: seq<string>): (r: seq<string>)
    ensures |r| == |raw|
    ensures forall k :: 0 <= k < |raw| ==> r[k] == Normalize(raw[k])
  {
    seq(|raw|, k requires 0 <= k < |raw| => Normalize(raw[k]))
  }

  function NormalizedNames(raw: seq<string>): set<string> {
    set x | x in raw :: Normalize(x)
  }

  /** Some name of the list would be created (it is not in `existing`)
      although a row with that tag is already there: either it was in the
      table from the start or an earlier name of the same list created it.
      Either way `Tag.create` hits the UNIQUE index on `Tag.tag`. */
  predicate CreatesClash(keys: set<string>, existing: set<string>, names: seq<string>) {
    exists k :: 0 <= k < |names| && names[k] !in existing &&
      (names[k] in keys || exists j :: 0 <= j < k && names[j] == names[k])
  }

  /** The tag update of one save would raise IntegrityError. */
  predicate TagConflict(tags: map<string, int>, raw: seq<string>) {
    CreatesClash(tags.Keys, ExistingTags(tags, raw), NormalizeAll(raw))
  }

  /** The creation loop of `update_tags` (app.py:143-148), over the
      normalised names. `existing` is computed once, before the loop, so it
      does not see rows the loop itself creates. */
  function CreateMissing(m: map<string, int>, existing: set<string>, names: seq<string>): (r: Result<map<string, int>, SaveError>)
    ensures r.Ok? ==> r.value.Keys == m.Keys + (set n | n in names && n !in existing)
    ensures r.Ok? ==> forall t :: t in m ==> r.value[t] == m[t]
    ensures r.Ok? ==> forall t :: t in r.value && t !in m ==> r.value[t] == 1
    decreases |names|
  {
    if |names| == 0 then Ok(m)
    else
      var n := names[0];
      assert names == [n] + names[1..];
      if n in existing then
        assert (set x | x in names && x !in existing) == (set x | x in names[1..] && x !in existing);
        CreateMissing(m, existing, names[1..])
      else if n in m then Err(IntegrityError)
      else
        assert (set x | x in names && x !in existing) == {n} + (set x | x in names[1..] && x !in existing);
        CreateMissing(m[n := 1], existing, names[1..])
  }

  /** The creation loop fails exactly on a clash. */
  lemma {:induction false} CreateMissingFailsIff(m: map<string, int>, existing: set<string>, names: seq<string>)
    ensures CreateMissing(m, existing, names).Err? <==> CreatesClash(m.Keys, existing, names)
    decreases |names|
  {
    if |names| > 0 {
      var n := names[0];
      var rest := names[1..];
      if n in existing {
        CreateMissingFailsIff(m, existing, rest);
        ClashSkipExisting(m.Keys, existing, names);
      } else if n in m {
        assert names[0] !in existing && names[0] in m.Keys;
      } else {
        CreateMissingFailsIff(m[n := 1], existing, rest);
        assert m[n := 1].Keys == m.Keys + {n};
        ClashSkipCreated(m.Keys, existing, names);
      }
    }
  }

  lemma ClashSkipExisting(keys: set<string>, existing: set<string>, names: seq<string>)
    requires |names| > 0 && names[0] in existing
    ensures CreatesClash(keys, existing, names) <==> CreatesClash(keys, existing, names[1..])
  {
    var rest := names[1..];
    if CreatesClash(keys, existing, names) {
      var k :| 0 <= k < |names| && names[k] !in existing &&
        (names[k] in keys || exists j :: 0 <= j < k && names[j] == names[k]);
      assert k > 0;
      assert rest[k - 1] == names[k];
      if names[k] !in keys {
        var j :| 0 <= j < k && names[j] == names[k];
        assert j > 0;
        assert rest[j - 1] == names[j];
      }
    }
    if CreatesClash(keys, existing, rest) {
      var k :| 0 <= k < |rest| && rest[k] !in existing &&
        (rest[k] in keys || exists j :: 0 <= j < k && rest[j] == rest[k]);
      assert names[k + 1] == rest[k];
      if rest[k] !in keys {
        var j :| 0 <= j < k && rest[j] == rest[k];
        assert names[j + 1] == rest[j];
      }
    }
  }

  lemma ClashSkipCreated(keys: set<string>, existing: set<string>, names: seq<string>)
    requires |names| > 0 && names[0] !in existing && names[0] !in keys
    ensures CreatesClash(keys, existing, names) <==> CreatesClash(keys + {names[0]}, existing, names[1..])
  {
    var rest := names[1..];
    var n := names[0];
    if CreatesClash(keys, existing, names) {
      var k :| 0 <= k < |names| && names[k] !in existing &&
        (names[k] in keys || exists j :: 0 <= j < k && names[j] == names[k]);
      assert k > 0;
      assert rest[k - 1] == names[k];
      if names[k] !in keys {
        var j :| 0 <= j < k && names[j] == names[k];
        if j > 0 {
          assert rest[j - 1] == names[j];
        }
      }
    }
    if CreatesClash(keys + {n}, existing, rest) {
      var k :| 0 <= k < |rest| && rest[k] !in existing &&
        (rest[k] in keys + {n} || exists j :: 0 <= j < k && rest[j] == rest[k]);
      assert names[k + 1] == rest[k];
      if rest[k] !in keys && rest[k] != n {
        var j :| 0 <= j < k && rest[j] == rest[k];
        assert names[j + 1] == rest[j];
      }
    }
  }

  /** `update_tags` (app.py:130-148): every Tag row whose tag equals one of
      the raw strings gains one, then every normalised tag not among those
      rows is created with count 1. Fails exactly when a creation clashes. */
  function UpdateTags(tags: map<string, int>, raw: seq<string>): (r: Result<map<string, int>, SaveError>)
    ensures r.Err? <==> TagConflict(tags, raw)
    ensures r.Ok? ==> r.value.Keys == tags.Keys + NormalizedNames(raw)
    ensures r.Ok? ==> forall t :: t in tags ==> r.value[t] == tags[t] + (if t in raw then 1 else 0)
    ensures r.Ok? ==> forall t :: t in r.value && t !in tags ==> r.value[t] == 1
  {
    var existing := ExistingTags(tags, raw);
    var bumped := map t | t in tags :: if t in raw then tags[t] + 1 else tags[t];
    var names := NormalizeAll(raw);
    assert bumped.Keys == tags.Keys;
    CreateMissingFailsIff(bumped, existing, names);
    var r := CreateMissing(bumped, existing, names);
    assert r.Ok? ==> r.value.Keys == tags.Keys + NormalizedNames(raw) by {
      if r.Ok? {
        NewNamesCover(tags, raw);
      }
    }
    r
  }

  /** The names created plus the rows already there cover every normalised
      tag of the list. */
  lemma NewNamesCover(tags: map<string, int>, raw: seq<string>)
    ensures tags.Keys + (set n | n in NormalizeAll(raw) && n !in ExistingTags(tags, raw))
         == tags.Keys + NormalizedNames(raw)
  {
    var names := NormalizeAll(raw);
    var existing := ExistingTags(tags, raw);
    forall n | n in names
      ensures n in NormalizedNames(raw)
    {
      var k :| 0 <= k < |names| && names[k] == n;
      assert raw[k] in raw;
    }
    forall x | x in raw
      ensures Normalize(x) in names
    {
      var k :| 0 <= k < |raw| && raw[k] == x;
      assert names[k] == Normalize(x);
    }
  }

  // ------------------------------------------------------------------- save

  /** `Entry.save` (app.py:93-110) as one step: write the entry row, append
      the association rows, rewrite the search document, update the tag
      counters. Returns the new tables and the entry as written. */
  function Save(db: Db, d: Draft): (r: Result<(Db, Entry), SaveError>)
    ensures r.Err? <==> SlugConflict(db.entries, d) || TagConflict(db.tags, d.tags)
  {
    match WriteEntry(db.entries, d)
    case Err(e) => Err(e)
    case Ok((entries, id)) =>
      var entryTags := db.entryTags + TagRows(id, d.tags);
      var fts := UpdateSearchIndex(db.fts, id, DocText(d.title, d.content, d.tags));
      match UpdateTags(db.tags, d.tags)
      case Err(e) => Err(e)
      case Ok(tags) => Ok((Db(entries, entryTags, tags, fts), RowFor(id, d)))
  }
}

module StoreFacts {
  import opened Results
  import opened Text
  import opened Slug
  import opened Store

  predicate UniqueIds(entries: seq<Entry>) {
    forall i, j :: 0 <= i < j < |entries| ==> entries[i].id != entries[j].id
  }

  /** SQLite hands out rowids from 1 upwards, so no entry has id 0 or less. */
  predicate PositiveIds(entries: seq<Entry>) {
    forall i :: 0 <= i < |entries| ==> entries[i].id >= 1
  }

  predicate UniqueSlugs(entries: seq<Entry>) {
    forall i, j :: 0 <= i < j < |entries| ==> entries[i].slug != entries[j].slug
  }

  /** The consistency the write path keeps between the four tables: ids are
      positive, ids and slugs are unique, every entry has exactly one search document and every
      document and association row belongs to an entry, and every tag
      counter is positive. */
  predicate WellFormed(db: Db) {
    && PositiveIds(db.entries)
    && UniqueIds(db.entries)
    && UniqueSlugs(db.entries)
    && DistinctDocIds(db.fts)
    && (forall k :: 0 <= k < |db.fts| ==> HasId(db.entries, db.fts[k].entryId))
    && (forall i :: 0 <= i < |db.entries| ==> HasDoc(db.fts, db.entries[i].id))
    && (forall k :: 0 <= k < |db.entryTags| ==> HasId(db.entries, db.entryTags[k].entryId))
    && (forall t :: t in db.tags ==> db.tags[t] >= 1)
  }

  lemma EmptyDbWellFormed()
    ensures WellFormed(EmptyDb)
  {
  }

  /** A successful entry write keeps ids and slugs unique and adds at most
      the written id to the set of ids. */
  lemma WriteEntryKeepsKeys(entries: seq<Entry>, d: Draft)
    requires UniqueIds(entries) && UniqueSlugs(entries)
    requires d.id.Some? ==> HasId(entries, d.id.value)
    requires WriteEntry(entries, d).Ok?
    ensures var (es, id) := WriteEntry(entries, d).value;
      && UniqueIds(es) && UniqueSlugs(es)
      && HasId(es, id)
      && (forall x :: HasId(es, x) <==> HasId(entries, x) || x == id)
  {
    var (es, id) := WriteEntry(entries, d).value;
    if d.id.None? {
      InsertKeepsKeys(entries, RowFor(id, d));
    } else {
      assert !SlugHeldByOther(entries, SlugFor(d), Some(id));
      UpdateKeepsKeys(entries, es, RowFor(id, d));
    }
  }

  /** Appending a row with a fresh id and a fresh slug. */
  lemma InsertKeepsKeys(entries: seq<Entry>, row: Entry)
    requires UniqueIds(entries) && UniqueSlugs(entries)
    requires !HasId(entries, row.id)
    requires !SlugHeldByOther(entries, row.slug, None)
    ensures var es := entries + [row];
      && UniqueIds(es) && UniqueSlugs(es)
      && HasId(es, row.id)
      && (forall x :: HasId(es, x) <==> HasId(entries, x) || x == row.id)
  {
    var es := entries + [row];
    assert es[|entries|] == row;
    forall x | HasId(es, x)
      ensures HasId(entries, x) || x == row.id
    {
      var i :| 0 <= i < |es| && es[i].id == x;
      if i < |entries| {
        assert entries[i].id == x;
      }
    }
    forall x | HasId(entries, x)
      ensures HasId(es, x)
    {
      var i :| 0 <= i < |entries| && entries[i].id == x;
      assert es[i].id == x;
    }
  }

  /** Rewriting the row of an existing id, when no other row holds the new
      slug. */
  lemma UpdateKeepsKeys(entries: seq<Entry>, es: seq<Entry>, row: Entry)
    requires UniqueIds(entries) && UniqueSlugs(entries)
    requires HasId(entries, row.id)
    requires !SlugHeldByOther(entries, row.slug, Some(row.id))
    requires |es| == |entries|
    requires forall i :: 0 <= i < |entries| ==> es[i] == if entries[i].id == row.id then row else entries[i]
    ensures && UniqueIds(es) && UniqueSlugs(es)
      && HasId(es, row.id)
      && (forall x :: HasId(es, x) <==> HasId(entries, x) || x == row.id)
  {
    forall i, j | 0 <= i < j < |es|
      ensures es[i].id != es[j].id && es[i].slug != es[j].slug
    {
      assert entries[i].id != entries[j].id;
    }
    assert forall i :: 0 <= i < |es| ==> es[i].id == entries[i].id;
  }

  /** `save` keeps the tables consistent when it is called as the views call
      it: on a new entry or on an entry that exists. */
  lemma SavePreservesWellFormed(db: Db, d: Draft)
    requires WellFormed(db)
    requires d.id.Some? ==> HasId(db.entries, d.id.value)
    requires Save(db, d).Ok?
    ensures WellFormed(Save(db, d).value.0)
  {
    WriteEntryKeepsKeys(db.entries, d);
    var (es, id) := WriteEntry(db.entries, d).value;
    assert Save(db, d).value.0.entries == es;
    IdsStayPositive(db.entries, es, id);
    SaveKeepsDocsLinked(db, d);
    SaveKeepsEntryTagsLinked(db, d);
  }

  /** The written id is the only id a save can add, and it is positive: a
      fresh rowid or the id of an existing row. */
  lemma IdsStayPositive(entries: seq<Entry>, es: seq<Entry>, id: int)
    requires PositiveIds(entries)
    requires HasId(es, id)
    requires forall x :: HasId(es, x) <==> HasId(entries, x) || x == id
    requires !HasId(entries, id) ==> id == NextId(entries)
    ensures PositiveIds(es)
  {
    forall i | 0 <= i < |es|
      ensures es[i].id >= 1
    {
      assert HasId(es, es[i].id);
    }
  }

  lemma SaveKeepsDocsLinked(db: Db, d: Draft)
    requires WellFormed(db)
    requires d.id.Some? ==> HasId(db.entries, d.id.value)
    requires Save(db, d).Ok?
    ensures var db' := Save(db, d).value.0;
      && DistinctDocIds(db'.fts)
      && (forall k :: 0 <= k < |db'.fts| ==> HasId(db'.entries, db'.fts[k].entryId))
      && (forall i :: 0 <= i < |db'.entries| ==> HasDoc(db'.fts, db'.entries[i].id))
  {
    var (es, id) := WriteEntry(db.entries, d).value;
    var fts := UpdateSearchIndex(db.fts, id, DocText(d.title, d.content, d.tags));
    assert Save(db, d).value.0.entries == es && Save(db, d).value.0.fts == fts;
    WriteEntryKeepsKeys(db.entries, d);
    DocsPointToEntries(db.entries, es, db.fts, id, fts);
    EntriesHaveDocs(db.entries, es, db.fts, id, fts);
  }

  lemma DocsPointToEntries(entries: seq<Entry>, es: seq<Entry>, fts: seq<FtsDoc>, id: int, fts': seq<FtsDoc>)
    requires forall k :: 0 <= k < |fts| ==> HasId(entries, fts[k].entryId)
    requires forall x :: HasId(es, x) <==> HasId(entries, x) || x == id
    requires forall k :: 0 <= k < |fts'| ==> fts'[k].entryId == id || (k < |fts| && fts'[k] == fts[k])
    ensures forall k :: 0 <= k < |fts'| ==> HasId(es, fts'[k].entryId)
  {
  }

  lemma EntriesHaveDocs(entries: seq<Entry>, es: seq<Entry>, fts: seq<FtsDoc>, id: int, fts': seq<FtsDoc>)
    requires forall i :: 0 <= i < |entries| ==> HasDoc(fts, entries[i].id)
    requires forall x :: HasId(es, x) <==> HasId(entries, x) || x == id
    requires HasDoc(fts', id)
    requires |fts| <= |fts'|
    requires forall k :: 0 <= k < |fts| && fts[k].entryId != id ==> fts'[k] == fts[k]
    ensures forall i :: 0 <= i < |es| ==> HasDoc(fts', es[i].id)
  {
    forall i | 0 <= i < |es|
      ensures HasDoc(fts', es[i].id)
    {
      var x := es[i].id;
      assert HasId(es, x);
      if x != id {
        var j :| 0 <= j < |entries| && entries[j].id == x;
        var k :| 0 <= k < |fts| && fts[k].entryId == x;
        assert fts'[k] == fts[k];
      }
    }
  }

  lemma SaveKeepsEntryTagsLinked(db: Db, d: Draft)
    requires WellFormed(db)
    requires d.id.Some? ==> HasId(db.entries, d.id.value)
    requires Save(db, d).Ok?
    ensures var db' := Save(db, d).value.0;
      forall k :: 0 <= k < |db'.entryTags| ==> HasId(db'.entries, db'.entryTags[k].entryId)
  {
    SaveTables(db, d);
    WriteEntryKeepsKeys(db.entries, d);
    var (es, id) := WriteEntry(db.entries, d).value;
    AppendedRowsLinked(db.entries, es, db.entryTags, TagRows(id, d.tags), id);
  }

  /** Where a successful save puts each of its writes. */
  lemma SaveTables(db: Db, d: Draft)
    requires Save(db, d).Ok?
    ensures WriteEntry(db.entries, d).Ok?
    ensures var (es, id) := WriteEntry(db.entries, d).value;
      var db' := Save(db, d).value.0;
      && db'.entries == es
      && db'.entryTags == db.entryTags + TagRows(id, d.tags)
      && db'.fts == UpdateSearchIndex(db.fts, id, DocText(d.title, d.content, d.tags))
  {
  }

  /** Rows of existing entries followed by rows of the written entry all
      point into the new table. */
  lemma AppendedRowsLinked(entries: seq<Entry>, es: seq<Entry>, prior: seq<EntryTag>, rows: seq<EntryTag>, id: int)
    requires forall k :: 0 <= k < |prior| ==> HasId(entries, prior[k].entryId)
    requires forall x :: HasId(es, x) <==> HasId(entries, x) || x == id
    requires forall k :: 0 <= k < |rows| ==> rows[k].entryId == id
    ensures forall k :: 0 <= k < |prior + rows| ==> HasId(es, (prior + rows)[k].entryId)
  {
    forall k | 0 <= k < |prior + rows|
      ensures HasId(es, (prior + rows)[k].entryId)
    {
      if k < |prior| {
        assert (prior + rows)[k] == prior[k];
      } else {
        assert (prior + rows)[k] == rows[k - |prior|];
      }
    }
  }

  /** The entry row a successful save writes: the draft's fields, the slug
      kept when it was set and derived from the title only when empty; a new
      entry is appended under a fresh id, an existing one is rewritten in
      place and every other row is left alone. */
  lemma SaveWritesEntry(db: Db, d: Draft)
    requires Save(db, d).Ok?
    ensures var (db', e) := Save(db, d).value;
      && e.title == d.title && e.content == d.content
      && e.published == d.published && e.timestamp == d.timestamp
      && (d.slug != "" ==> e.slug == d.slug)
      && (d.slug == "" ==> e.slug == Normalize(d.title))
      && (d.id.None? ==> !HasId(db.entries, e.id) && db'.entries == db.entries + [e])
      && (d.id.Some? ==> e.id == d.id.value && |db'.entries| == |db.entries|)
      && (d.id.Some? ==> forall i :: 0 <= i < |db.entries| ==>
            db'.entries[i] == if db.entries[i].id == e.id then e else db.entries[i])
  {
  }

  /** A successful save appends one association row per raw tag, named with
      the normalised tag, and removes none. */
  lemma SaveAppendsEntryTags(db: Db, d: Draft)
    requires Save(db, d).Ok?
    ensures var (db', e) := Save(db, d).value;
      && |db'.entryTags| == |db.entryTags| + |d.tags|
      && db'.entryTags[..|db.entryTags|] == db.entryTags
      && (forall k :: 0 <= k < |d.tags| ==>
            db'.entryTags[|db.entryTags| + k] == EntryTag(e.id, Normalize(d.tags[k])))
  {
    var (db', e) := Save(db, d).value;
    assert db'.entryTags == db.entryTags + TagRows(e.id, d.tags);
  }

  /** After a successful save on consistent tables the entry has exactly one
      search document, holding its title, content and raw tags; an existing
      document is overwritten, not duplicated, and other entries' documents
      are untouched. */
  lemma SaveRewritesSearchDoc(db: Db, d: Draft)
    requires DistinctDocIds(db.fts)
    requires Save(db, d).Ok?
    ensures var (db', e) := Save(db, d).value;
      var text := d.title + "\n" + d.content + "\n" + Join(d.tags, ",");
      && DistinctDocIds(db'.fts)
      && HasDoc(db'.fts, e.id)
      && (forall k :: 0 <= k < |db'.fts| && db'.fts[k].entryId == e.id ==> db'.fts[k].content == text)
      && (HasDoc(db.fts, e.id) ==> |db'.fts| == |db.fts|)
      && (forall k :: 0 <= k < |db.fts| && db.fts[k].entryId != e.id ==> db'.fts[k] == db.fts[k])
  {
    var (db', e) := Save(db, d).value;
    assert db'.fts == UpdateSearchIndex(db.fts, e.id, DocText(d.title, d.content, d.tags));
    var k :| 0 <= k < |db'.fts| && db'.fts[k] == FtsDoc(e.id, DocText(d.title, d.content, d.tags));
  }

  /** The tag counters after a successful save: rows whose tag equals one of
      the raw strings gain exactly one, each normalised tag that had no row
      gets one with count 1, and nothing else changes. */
  lemma SaveCountsTags(db: Db, d: Draft)
    requires Save(db, d).Ok?
    ensures var db' := Save(db, d).value.0;
      && db'.tags.Keys == db.tags.Keys + NormalizedNames(d.tags)
      && (forall t :: t in db.tags ==> db'.tags[t] == db.tags[t] + (if t in d.tags then 1 else 0))
      && (forall t :: t in db'.tags && t !in db.tags ==> db'.tags[t] == 1)
  {
  }
}

=== FILE: strings.dfy ===
/** The Python string methods the views apply to form fields and search
    queries: `strip()`, `split(', ')`, `split()` and `join`. */
module Strings {
  import opened Text

  /** The number of characters `lstrip()` removes. */
  function LeadingSpace(s: string): (n: nat)
    ensures n <= |s|
    ensures forall i :: 0 <= i < n ==> IsSpace(s[i])
    ensures n < |s| ==> !IsSpace(s[n])
  {
    if |s| > 0 && IsSpace(s[0]) then 1 + LeadingSpace(s[1..]) else 0
  }

  /** The number of characters `rstrip()` removes. */
  function TrailingSpace(s: string): (n: nat)
    ensures n <= |s|
    ensures forall i :: |s| - n <= i < |s| ==> IsSpace(s[i])
    ensures n < |s| ==> !IsSpace(s[|s| - 1 - n])
  {
    if |s| > 0 && IsSpace(s[|s| - 1]) then 1 + TrailingSpace(s[..|s| - 1]) else 0
  }

  /** `s.strip()`: the result neither starts nor ends with whitespace, and
      it is empty exactly when `s` is all whitespace. */
  function StripSpace(s: string): (r: string)
    ensures |r| <= |s|
    ensures |r| > 0 ==> !IsSpace(r[0]) && !IsSpace(r[|r| - 1])
    ensures r == "" <==> forall i :: 0 <= i < |s| ==> IsSpace(s[i])
  {
    var k := LeadingSpace(s);
    var t := s[k..];
    var n := TrailingSpace(t);
    assert n < |t| ==> s[|s| - n - 1] == t[|t| - 1 - n];
    s[k..|s| - n]
  }

  /** `strip()` removes exactly a whitespace prefix and a whitespace suffix:
      `s` is some whitespace, then the result, then some whitespace. */
  lemma StripSpaceIsSlice(s: string)
    ensures var k := LeadingSpace(s);
      && k + |StripSpace(s)| <= |s|
      && StripSpace(s) == s[k..k + |StripSpace(s)|]
      && (forall i :: 0 <= i < k ==> IsSpace(s[i]))
      && (forall i :: k + |StripSpace(s)| <= i < |s| ==> IsSpace(s[i]))
  {
    var k := LeadingSpace(s);
    SuffixSpaces(s, k, TrailingSpace(s[k..]));
  }

  /** Trailing whitespace of a suffix of `s` is trailing whitespace of `s`. */
  lemma SuffixSpaces(s: string, k: nat, n: nat)
    requires k <= |s| && n <= |s| - k
    requires forall i :: |s| - k - n <= i < |s| - k ==> IsSpace(s[k..][i])
    ensures forall i :: |s| - n <= i < |s| ==> IsSpace(s[i])
  {
    forall i | |s| - n <= i < |s|
      ensures IsSpace(s[i])
    {
      assert s[i] == s[k..][i - k];
    }
  }

  /** A string with no whitespace at either end is left alone by `strip()`. */
  lemma StripSpaceNoop(w: string)
    requires |w| > 0 ==> !IsSpace(w[0]) && !IsSpace(w[|w| - 1])
    ensures StripSpace(w) == w
  {
    assert LeadingSpace(w) == 0;
    assert w[0..] == w;
    assert TrailingSpace(w) == 0;
    assert w[..|w|] == w;
  }

  /** The two-character separator `", "` occurs at index `i` of `s`. */
  predicate SeparatorAt(s: string, i: int) {
    0 <= i && i + 1 < |s| && s[i] == ',' && s[i + 1] == ' '
  }

  predicate ContainsSeparator(s: string) {
    exists i :: 0 <= i < |s| && SeparatorAt(s, i)
  }

  /** `s.split(', ')`: the pieces between the non-overlapping occurrences of
      `", "` found left to right. There is always at least one piece, so
      `"".split(', ')` is `[""]`. */
  function SplitOnSeparator(s: string): (r: seq<string>)
    ensures |r| >= 1
    ensures |r[0]| > 0 ==> |s| > 0 && r[0][0] == s[0]
    ensures forall k :: 0 <= k < |r| ==> !ContainsSeparator(r[k])
    decreases |s|
  {
    if |s| == 0 then [""]
    else if SeparatorAt(s, 0) then [""] + SplitOnSeparator(s[2..])
    else
      var rest := SplitOnSeparator(s[1..]);
      var first := [s[0]] + rest[0];
      assert forall i :: SeparatorAt(first, i) && i > 0 ==> SeparatorAt(rest[0], i - 1);
      [first] + rest[1..]
  }

  /** Joining the pieces back with `", "` gives the string that was split. */
  lemma {:induction false} JoinSplitOnSeparator(s: string)
    ensures Join(SplitOnSeparator(s), ", ") == s
    decreases |s|
  {
    if |s| == 0 {
    } else if SeparatorAt(s, 0) {
      JoinSplitOnSeparator(s[2..]);
      assert s == ", " + s[2..];
    } else {
      var rest := SplitOnSeparator(s[1..]);
      JoinSplitOnSeparator(s[1..]);
      assert SplitOnSeparator(s) == [[s[0]] + rest[0]] + rest[1..];
      JoinExtendFirst(s[0], rest, ", ");
      assert s == [s[0]] + s[1..];
    }
  }

  /** A separator-free piece followed by `", "` splits off as one piece. */
  lemma {:induction false} SplitOnSeparatorPrefix(p: string, rest: string)
    requires !ContainsSeparator(p)
    ensures SplitOnSeparator(p + ", " + rest) == [p] + SplitOnSeparator(rest)
    decreases |p|
  {
    var s := p + ", " + rest;
    if |p| == 0 {
      assert s == ", " + rest;
      assert SeparatorAt(s, 0);
      assert s[2..] == rest;
    } else {
      var q := p[1..];
      assert !ContainsSeparator(q) by {
        forall i | 0 <= i < |q| && SeparatorAt(q, i)
          ensures false
        {
          assert SeparatorAt(p, i + 1);
        }
      }
      assert s[0] == p[0];
      assert s[1..] == q + ", " + rest;
      if |q| > 0 {
        assert s[1] == q[0];
        assert !SeparatorAt(p, 0);
      } else {
        assert s[1] == ',';
      }
      assert !SeparatorAt(s, 0);
      SplitOnSeparatorPrefix(q, rest);
      assert [p[0]] + q == p;
    }
  }

  /** A separator-free string is a single piece. */
  lemma {:induction false} SplitOnSeparatorWhole(p: string)
    requires !ContainsSeparator(p)
    ensures SplitOnSeparator(p) == [p]
    decreases |p|
  {
    if |p| > 0 {
      var q := p[1..];
      assert !ContainsSeparator(q) by {
        forall i | 0 <= i < |q| && SeparatorAt(q, i)
          ensures false
        {
          assert SeparatorAt(p, i + 1);
        }
      }
      if |q| > 0 {
        assert p[1] == q[0];
      }
      assert !SeparatorAt(p, 0);
      SplitOnSeparatorWhole(q);
      assert [p[0]] + q == p;
    }
  }

  /** Splitting a `", "`-join of separator-free pieces recovers the pieces. */
  lemma {:induction false} SplitJoinOnSeparator(ps: seq<string>)
    requires |ps| >= 1
    requires forall k :: 0 <= k < |ps| ==> !ContainsSeparator(ps[k])
    ensures SplitOnSeparator(Join(ps, ", ")) == ps
    decreases |ps|
  {
    if |ps| == 1 {
      SplitOnSeparatorWhole(ps[0]);
    } else {
      SplitJoinOnSeparator(ps[1..]);
      SplitOnSeparatorPrefix(ps[0], Join(ps[1..], ", "));
      assert [ps[0]] + ps[1..] == ps;
    }
  }

  /** A non-empty string without whitespace: what `split()` returns. */
  predicate IsWord(w: string) {
    |w| > 0 && forall i :: 0 <= i < |w| ==> !IsSpace(w[i])
  }

  /** `s.split()`: the maximal runs of non-whitespace characters. */
  function SplitOnSpace(s: string): (r: seq<string>)
    ensures |s| > 0 && !IsSpace(s[0]) ==> |r| > 0 && |r[0]| > 0 && r[0][0] == s[0]
    ensures forall k :: 0 <= k < |r| ==> IsWord(r[k])
    decreases |s|
  {
    if |s| == 0 then []
    else if IsSpace(s[0]) then SplitOnSpace(s[1..])
    else
      var rest := SplitOnSpace(s[1..]);
      if |s| > 1 && !IsSpace(s[1]) then [[s[0]] + rest[0]] + rest[1..]
      else [[s[0]]] + rest
  }

  /** The words of a split, glued together, are the non-whitespace
      characters of the input, in order. */
  lemma {:induction false} SplitOnSpaceKeepsCharacters(s: string)
    ensures Concat(SplitOnSpace(s)) == NonSpaceChars(s)
    decreases |s|
  {
    if |s| > 0 {
      SplitOnSpaceKeepsCharacters(s[1..]);
      var rest := SplitOnSpace(s[1..]);
      if !IsSpace(s[0]) && |s| > 1 && !IsSpace(s[1]) {
        var r := SplitOnSpace(s);
        assert r == [[s[0]] + rest[0]] + rest[1..];
        assert Concat(rest) == rest[0] + Concat(rest[1..]);
        assert Concat(r) == ([s[0]] + rest[0]) + Concat(rest[1..]);
      }
    }
  }

  /** `split()` finds no word exactly when the input is all whitespace. */
  lemma SplitOnSpaceEmptyIff(s: string)
    ensures SplitOnSpace(s) == [] <==> forall i :: 0 <= i < |s| ==> IsSpace(s[i])
  {
    SplitOnSpaceKeepsCharacters(s);
    NonSpaceCharsEmptyIff(s);
    var r := SplitOnSpace(s);
    if r != [] {
      assert Concat(r) == r[0] + Concat(r[1..]);
    }
  }

  lemma {:induction false} NonSpaceCharsEmptyIff(s: string)
    ensures NonSpaceChars(s) == "" <==> forall i :: 0 <= i < |s| ==> IsSpace(s[i])
  {
    if |s| > 0 {
      NonSpaceCharsEmptyIff(s[1..]);
      if forall i :: 0 <= i < |s[1..]| ==> IsSpace(s[1..][i]) {
        if IsSpace(s[0]) {
          assert forall i :: 0 <= i < |s| ==> IsSpace(s[i]) by {
            forall i | 0 <= i < |s| ensures IsSpace(s[i]) {
              if i > 0 { assert s[i] == s[1..][i - 1]; }
            }
          }
        }
      }
    }
  }

  /** A word with no whitespace is one run. */
  lemma {:induction false} SplitOnSpaceWord(w: string, rest: string)
    requires |w| > 0
    requires forall i :: 0 <= i < |w| ==> !IsSpace(w[i])
    requires |rest| == 0 || IsSpace(rest[0])
    ensures SplitOnSpace(w + rest) == [w] + SplitOnSpace(rest)
    decreases |w|
  {
    var s := w + rest;
    assert s[0] == w[0];
    assert !IsSpace(s[0]);
    if |w| == 1 {
      assert s[1..] == rest;
      assert [s[0]] == w;
      assert !(|s| > 1 && !IsSpace(s[1]));
    } else {
      assert s[1..] == w[1..] + rest;
      SplitOnSpaceWord(w[1..], rest);
      assert s[1] == w[1];
      assert !IsSpace(s[1]);
      var tail := SplitOnSpace(s[1..]);
      assert tail == [w[1..]] + SplitOnSpace(rest);
      assert SplitOnSpace(s) == [[s[0]] + tail[0]] + tail[1..];
      assert [w[0]] + w[1..] == w;
    }
  }

  /** Splitting the single-space join of whitespace-free, non-empty words
      recovers the words. */
  lemma SplitOnSpaceJoin(ws: seq<string>)
    requires forall k :: 0 <= k < |ws| ==> IsWord(ws[k])
    ensures SplitOnSpace(Join(ws, " ")) == ws
  {
    SplitOnSpaceJoinWith(ws, ' ');
  }

  /** The same for a join with any single whitespace character. */
  lemma {:induction false} SplitOnSpaceJoinWith(ws: seq<string>, c: char)
    requires IsSpace(c)
    requires forall k :: 0 <= k < |ws| ==> IsWord(ws[k])
    ensures SplitOnSpace(Join(ws, [c])) == ws
    decreases |ws|
  {
    if |ws| == 1 {
      SplitOnSpaceWord(ws[0], "");
      assert ws[0] + "" == ws[0];
    } else if |ws| > 1 {
      var tail := Join(ws[1..], [c]);
      SplitOnSpaceJoinWith(ws[1..], c);
      SplitOnSpaceWordThenSpace(ws[0], c, tail);
      assert Join(ws, [c]) == ws[0] + ([c] + tail);
      assert [ws[0]] + ws[1..] == ws;
    }
  }

  /** A word followed by a whitespace character splits off as one run. */
  lemma SplitOnSpaceWordThenSpace(w: string, c: char, tail: string)
    requires IsWord(w) && IsSpace(c)
    ensures SplitOnSpace(w + ([c] + tail)) == [w] + SplitOnSpace(tail)
  {
    var s := [c] + tail;
    SplitOnSpaceWord(w, s);
    assert s[0] == c && s[1..] == tail;
  }
}

=== FILE: text.dfy ===
/** Character classes and small string helpers with the meaning Python 2
    gives them on `unicode` values. */
module Text {

  /** `\w` in a Python 2 regular expression compiled without the UNICODE
      flag: ASCII letters, ASCII digits and the underscore. */
  predicate IsWordChar(c: char) {
    ('a' <= c <= 'z') || ('A' <= c <= 'Z') || ('0' <= c <= '9') || c == '_'
  }

  predicate IsUpper(c: char) {
    'A' <= c <= 'Z'
  }

  /** The characters a normalised slug or tag may contain. */
  predicate IsSlugChar(c: char) {
    ('a' <= c <= 'z') || ('0' <= c <= '9') || c == '_' || c == '-'
  }

  /** The whitespace that `unicode.split()` and `unicode.strip()` remove
      (the characters for which `unicode.isspace()` holds). */
  predicate IsSpace(c: char) {
    var n := c as int;
    n == 0x20 || (0x09 <= n <= 0x0D) || (0x1C <= n <= 0x1F) || n == 0x85 || n == 0xA0
    || n == 0x1680 || n == 0x180E || (0x2000 <= n <= 0x200A) || n == 0x2028 || n == 0x2029
    || n == 0x202F || n == 0x205F || n == 0x3000
  }

  /** The two characters outside ASCII whose lower-case form is an ASCII
      letter: LATIN CAPITAL LETTER I WITH DOT ABOVE lowers to `i` and
      KELVIN SIGN to `k`. */
  predicate LowersToAscii(c: char) {
    c == '\U{0130}' || c == '\U{212A}'
  }

  /** `unicode.lower()` on one character, as far as the normaliser can
      tell: ASCII capitals and the two characters above become ASCII
      letters and every other character is kept. Python lower-cases some of
      those others to different characters, but never to a word character,
      and the normaliser replaces every non-word character by the same
      hyphen. */
  function LowerChar(c: char): (r: char)
    ensures !IsUpper(r)
    ensures IsUpper(c) ==> r as int == c as int + 32
    ensures IsWordChar(r) <==> IsWordChar(c) || LowersToAscii(c)
    ensures !IsUpper(c) && !LowersToAscii(c) ==> r == c
  {
    if IsUpper(c) then (c as int + 32) as char
    else if c == '\U{0130}' then 'i'
    else if c == '\U{212A}' then 'k'
    else c
  }

  function Lower(s: string): (r: string)
    ensures |r| == |s|
    ensures forall i :: 0 <= i < |s| ==> r[i] == LowerChar(s[i])
  {
    seq(|s|, i requires 0 <= i < |s| => LowerChar(s[i]))
  }

  /** The word characters of `s`, in order. */
  function WordChars(s: string): string {
    if |s| == 0 then ""
    else (if IsWordChar(s[0]) then [s[0]] else "") + WordChars(s[1..])
  }

  /** The non-whitespace characters of `s`, in order. */
  function NonSpaceChars(s: string): string {
    if |s| == 0 then ""
    else (if IsSpace(s[0]) then "" else [s[0]]) + NonSpaceChars(s[1..])
  }

  /** Python's `sep.join(parts)`. */
  function Join(parts: seq<string>, sep: string): string {
    if |parts| == 0 then ""
    else if |parts| == 1 then parts[0]
    else parts[0] + sep + Join(parts[1..], sep)
  }

  /** Prepending a character to the first part prepends it to the join. */
  lemma JoinExtendFirst(c: char, ps: seq<string>, sep: string)
    requires |ps| >= 1
    ensures Join([[c] + ps[0]] + ps[1..], sep) == [c] + Join(ps, sep)
  {
    var r := [[c] + ps[0]] + ps[1..];
    assert r[0] == [c] + ps[0];
    if |ps| > 1 {
      var tail := Join(ps[1..], sep);
      assert r[1..] == ps[1..];
      assert Join(r, sep) == ([c] + ps[0]) + sep + tail;
      assert Join(ps, sep) == ps[0] + sep + tail;
    }
  }

  /** The concatenation of all `parts`, with nothing between them. */
  function Concat(parts: seq<string>): string {
    if |parts| == 0 then "" else parts[0] + Concat(parts[1..])
  }

  /** `s` has no word character exactly when `WordChars(s)` is empty. */
  lemma {:induction false} WordCharsEmptyIff(s: string)
    ensures WordChars(s) == "" <==> forall i :: 0 <= i < |s| ==> !IsWordChar(s[i])
  {
    if |s| > 0 {
      WordCharsEmptyIff(s[1..]);
      assert forall i :: 1 <= i < |s| ==> s[i] == s[1..][i - 1];
    }
  }

  lemma {:induction false} WordCharsAppend(a: string, b: string)
    ensures WordChars(a + b) == WordChars(a) + WordChars(b)
  {
    if |a| == 0 {
      assert a + b == b;
    } else {
      var ab := a + b;
      var h := if IsWordChar(a[0]) then [a[0]] else "";
      assert WordChars(ab) == h + WordChars(a[1..] + b) by {
        assert ab[0] == a[0];
        assert ab[1..] == a[1..] + b;
      }
      WordCharsAppend(a[1..], b);
      assert WordChars(a) == h + WordChars(a[1..]);
    }
  }
}

=== FILE: views.dfy ===
/** The write views `create` and `edit` and the helper they share,
    `_create_or_edit` (app.py:263-317), plus the `clean_querystring`
    template filter (app.py:344-355). A request is a POST with its form
    fields; the result is the new tables and what the browser is sent. */
module Views {
  import opened Results
  import opened Text
  import opened Strings
  import opened Slug
  import opened Store
  import opened StoreFacts
  import opened Queries

  /** The submitted form: each field may be missing from the request. */
  datatype Form = Form(title: Option<string>, content: Option<string>,
                       published: Option<string>, tags: Option<string>)

  /** What the view answers. `ToDetail` and `ToEditor` are the redirects
      after a successful save; `MissingFields` and `TitleInUse` re-render
      the form with a flashed error; `ServerError` is the uncaught
      exception of a request without a `tags` field; `NotFound` is the 404
      of `edit` for an unknown slug. */
  datatype Outcome =
    | ToDetail(slug: string)
    | ToEditor(slug: string)
    | MissingFields
    | TitleInUse
    | ServerError
    | NotFound

  predicate Saved(o: Outcome) {
    o.ToDetail? || o.ToEditor?
  }

  /** `request.form.get('tags').strip().split(', ')` (app.py:269); the
      trailing `or False` never applies because `split` never returns an
      empty list. */
  function FormTags(field: string): (r: seq<string>)
    ensures |r| >= 1
    ensures Join(r, ", ") == StripSpace(field)
    ensures forall k :: 0 <= k < |r| ==> !ContainsSeparator(r[k])
  {
    JoinSplitOnSeparator(StripSpace(field));
    SplitOnSeparator(StripSpace(field))
  }

  /** The fields `_create_or_edit` assigns before validating
      (app.py:265-269): a missing title or content becomes the empty
      string, and the entry is published when the checkbox value is a
      non-empty string. */
  function Fill(base: Draft, form: Form, tagsField: string): (d: Draft)
    ensures d.id == base.id && d.slug == base.slug && d.timestamp == base.timestamp
    ensures (d.title == "") <==> (form.title.None? || form.title.value == "")
    ensures form.title.Some? ==> d.title == form.title.value
    ensures (d.content == "") <==> (form.content.None? || form.content.value == "")
    ensures form.content.Some? ==> d.content == form.content.value
    ensures d.published <==> form.published.Some? && form.published.value != ""
    ensures Join(d.tags, ", ") == StripSpace(tagsField)
    ensures forall k :: 0 <= k < |d.tags| ==> !ContainsSeparator(d.tags[k])
  {
    Draft(base.id, form.title.GetOr(""), base.slug, form.content.GetOr(""),
          form.published.GetOr("") != "", base.timestamp, FormTags(tagsField))
  }

  /** `_create_or_edit` on a POST (app.py:263-289). The save runs inside
      `database.atomic()`, so an IntegrityError from any of its statements
      leaves all four tables as they were. */
  function CreateOrEdit(db: Db, base: Draft, form: Form): (r: (Db, Outcome))
    ensures !Saved(r.1) ==> r.0 == db
    ensures form.tags.None? <==> r.1 == ServerError
    ensures r.1 == MissingFields <==>
      form.tags.Some? && (form.title.GetOr("") == "" || form.content.GetOr("") == "")
    ensures form.tags.Some? ==>
      var d := Fill(base, form, form.tags.value);
      && (r.1 == TitleInUse <==>
            d.title != "" && d.content != "" && (SlugConflict(db.entries, d) || TagConflict(db.tags, d.tags)))
      && (Saved(r.1) ==> r.1.ToDetail? == d.published && r.1.slug == SlugFor(d))
      && (Saved(r.1) <==> Save(db, d).Ok? && d.title != "" && d.content != "")
      && (Saved(r.1) ==> r.0 == Save(db, d).value.0)
  {
    match form.tags
    case None => (db, ServerError)
    case Some(field) =>
      var d := Fill(base, form, field);
      if d.title == "" || d.content == "" then (db, MissingFields)
      else
        match Save(db, d)
        case Err(_) => (db, TitleInUse)
        case Ok((db', e)) => (db', if e.published then ToDetail(e.slug) else ToEditor(e.slug))
  }

  /** The entry `create` starts from (app.py:291-294): no id, no slug, and
      the timestamp taken when the request is handled. */
  function NewEntry(now: int): (r: Draft)
    ensures r.id.None? && r.timestamp == now
    ensures forall form: Form, field: string ::
      SlugFor(Fill(r, form, field)) == Normalize(form.title.GetOr(""))
  {
    Draft(None, "", "", "", false, now, [])
  }

  /** The `create` view on a POST (app.py:291-294). */
  function Create(db: Db, form: Form, now: int): (r: (Db, Outcome))
    ensures r.1 != NotFound
    ensures !Saved(r.1) ==> r.0 == db
    ensures Saved(r.1) ==> |r.0.entries| == |db.entries| + 1
  {
    var r := CreateOrEdit(db, NewEntry(now), form);
    if Saved(r.1) then
      SaveWritesEntry(db, Fill(NewEntry(now), form, form.tags.value));
      r
    else r
  }

  /** The entry `edit` loads and then rewrites (app.py:313-317): the stored
      row, looked up by slug among all entries, drafts included. */
  function Stored(e: Entry): (r: Draft)
    ensures r.id == Some(e.id)
    ensures RowFor(e.id, r) == e <==> e.slug != "" || Normalize(e.title) == ""
  {
    Draft(Some(e.id), e.title, e.slug, e.content, e.published, e.timestamp, [])
  }

  /** The `edit` view on a POST (app.py:313-317). */
  function Edit(db: Db, slug: string, form: Form): (r: (Db, Outcome))
    ensures r.1 == NotFound <==> forall e :: e in db.entries ==> e.slug != slug
    ensures !Saved(r.1) ==> r.0 == db
    ensures Saved(r.1) ==> |r.0.entries| == |db.entries|
  {
    match FirstWithSlug(db.entries, slug)
    case None => (db, NotFound)
    case Some(e) =>
      var r := CreateOrEdit(db, Stored(e), form);
      if Saved(r.1) then
        SaveWritesEntry(db, Fill(Stored(e), form, form.tags.value));
        r
      else r
  }

  // ------------------------------------------------------------ properties

  /** The entry a successful save returns is a row of the new table, when
      the save is a create or an update of an entry that exists. */
  lemma SaveStoresEntry(db: Db, d: Draft) returns (i: nat)
    requires d.id.Some? ==> HasId(db.entries, d.id.value)
    requires Save(db, d).Ok?
    ensures var (db', e) := Save(db, d).value;
      i < |db'.entries| && db'.entries[i] == e
  {
    var (db', e) := Save(db, d).value;
    SaveWritesEntry(db, d);
    if d.id.None? {
      i := |db.entries|;
    } else {
      var j :| 0 <= j < |db.entries| && db.entries[j].id == d.id.value;
      i := j;
    }
  }

  /** An entry found by `FirstWithSlug` exists under its id. */
  lemma FoundEntryExists(entries: seq<Entry>, slug: string)
    requires FirstWithSlug(entries, slug).Some?
    ensures HasId(entries, FirstWithSlug(entries, slug).value.id)
  {
    var e := FirstWithSlug(entries, slug).value;
    var i :| 0 <= i < |entries| && entries[i] == e;
  }

  /** `create` keeps the tables consistent. */
  lemma CreatePreservesWellFormed(db: Db, form: Form, now: int)
    requires WellFormed(db)
    ensures WellFormed(Create(db, form, now).0)
  {
    var r := Create(db, form, now);
    if Saved(r.1) {
      SavePreservesWellFormed(db, Fill(NewEntry(now), form, form.tags.value));
    }
  }

  /** `edit` keeps the tables consistent. */
  lemma EditPreservesWellFormed(db: Db, slug: string, form: Form)
    requires WellFormed(db)
    ensures WellFormed(Edit(db, slug, form).0)
  {
    var r := Edit(db, slug, form);
    if Saved(r.1) {
      FoundEntryExists(db.entries, slug);
      var e := FirstWithSlug(db.entries, slug).value;
      SavePreservesWellFormed(db, Fill(Stored(e), form, form.tags.value));
    }
  }

  /** The page `create` redirects to shows the entry just written: the
      detail page finds a published entry even for a visitor, and the
      editor finds a draft. */
  lemma CreateRedirectFindsEntry(db: Db, form: Form, now: int)
    requires WellFormed(db)
    ensures var (db', o) := Create(db, form, now);
      Saved(o) ==>
        var e := FirstWithSlug(db'.entries, o.slug);
        && e.Some? && e.value.title == form.title.value && e.value.content == form.content.value
        && (o.ToDetail? ==> Lookup(db'.entries, o.slug, false) == e)
  {
    if !Saved(Create(db, form, now).1) {
      return;
    }
    var d := Fill(NewEntry(now), form, form.tags.value);
    var i := SaveStoresEntry(db, d);
    SavePreservesWellFormed(db, d);
    SaveWritesEntry(db, d);
    var db' := Save(db, d).value.0;
    LookupFindsTheEntry(db'.entries, i, true);
    if Create(db, form, now).1.ToDetail? {
      LookupFindsTheEntry(db'.entries, i, false);
    }
  }

  /** Same for `edit`: the redirect target resolves to the rewritten entry. */
  lemma EditRedirectFindsEntry(db: Db, slug: string, form: Form)
    requires WellFormed(db)
    ensures var (db', o) := Edit(db, slug, form);
      Saved(o) ==>
        var e := FirstWithSlug(db'.entries, o.slug);
        && e.Some? && e.value.title == form.title.value && e.value.content == form.content.value
        && (o.ToDetail? ==> Lookup(db'.entries, o.slug, false) == e)
  {
    if !Saved(Edit(db, slug, form).1) {
      return;
    }
    FoundEntryExists(db.entries, slug);
    var prev := FirstWithSlug(db.entries, slug).value;
    var d := Fill(Stored(prev), form, form.tags.value);
    var i := SaveStoresEntry(db, d);
    SavePreservesWellFormed(db, d);
    SaveWritesEntry(db, d);
    var db' := Save(db, d).value.0;
    LookupFindsTheEntry(db'.entries, i, true);
    if Edit(db, slug, form).1.ToDetail? {
      LookupFindsTheEntry(db'.entries, i, false);
    }
  }

  /** The slug is set once: editing an entry whose slug is non-empty keeps
      that slug, whatever the new title. */
  lemma EditKeepsSlug(db: Db, slug: string, form: Form)
    requires slug != ""
    ensures Saved(Edit(db, slug, form).1) ==> Edit(db, slug, form).1.slug == slug
  {
  }

  /** An entry whose slug is empty (its title had no word character) gets a
      slug derived from the new title when it is saved again. This is what
      `save` does with such an entry; the `/<slug>/edit/` route never
      matches an empty slug, so no request reaches this case. */
  lemma EditDerivesMissingSlug(db: Db, form: Form)
    ensures Saved(Edit(db, "", form).1) ==>
      Edit(db, "", form).1.slug == Normalize(form.title.value)
  {
  }

  /** A title without any word character yields the empty slug, and `save`
      stores it rather than rejecting it. */
  lemma CreateAcceptsEmptySlug(db: Db, form: Form, now: int)
    requires form.tags.Some? && form.content.GetOr("") != ""
    requires form.title.Some? && form.title.value != ""
    requires forall i :: 0 <= i < |form.title.value| ==>
      !IsWordChar(form.title.value[i]) && !LowersToAscii(form.title.value[i])
    requires forall e :: e in db.entries ==> e.slug != ""
    requires !TagConflict(db.tags, FormTags(form.tags.value))
    ensures Saved(Create(db, form, now).1) && Create(db, form, now).1.slug == ""
  {
    var d := Fill(NewEntry(now), form, form.tags.value);
    assert d.slug == "" && d.title == form.title.value && d.content != "";
    assert SlugFor(d) == "" by {
      NormalizeEmptyIff(form.title.value);
    }
    assert Save(db, d).Ok? by {
      assert !SlugConflict(db.entries, d) by {
        assert forall i :: 0 <= i < |db.entries| ==> db.entries[i] in db.entries;
      }
    }
    var r := CreateOrEdit(db, NewEntry(now), form);
    assert Saved(r.1) && r.1.slug == "";
    assert Create(db, form, now) == r;
  }

  /** Saving an entry again appends its association rows again: the rows of
      the earlier saves are never removed, so an edit that keeps the same
      tags duplicates them. */
  lemma EditAppendsEntryTags(db: Db, slug: string, form: Form)
    ensures var (db', o) := Edit(db, slug, form);
      Saved(o) ==>
        && |db'.entryTags| == |db.entryTags| + |FormTags(form.tags.value)|
        && db'.entryTags[..|db.entryTags|] == db.entryTags
  {
    if !Saved(Edit(db, slug, form).1) {
      return;
    }
    var e := FirstWithSlug(db.entries, slug).value;
    SaveAppendsEntryTags(db, Fill(Stored(e), form, form.tags.value));
  }

  /** Every save increments the counter of a tag already present under its
      raw spelling, so re-saving an entry with the same tags counts them
      again. */
  lemma EditCountsTagsAgain(db: Db, slug: string, form: Form, t: string)
    requires t in db.tags
    ensures var (db', o) := Edit(db, slug, form);
      Saved(o) && t in FormTags(form.tags.value) ==> db'.tags[t] == db.tags[t] + 1
  {
    if !Saved(Edit(db, slug, form).1) || t !in FormTags(form.tags.value) {
      return;
    }
    var e := FirstWithSlug(db.entries, slug).value;
    SaveCountsTags(db, Fill(Stored(e), form, form.tags.value));
  }

  /** A tags field that is empty or all whitespace gives one empty tag. */
  lemma BlankTagsFieldGivesEmptyTag(field: string)
    requires forall i :: 0 <= i < |field| ==> IsSpace(field[i])
    ensures FormTags(field) == [""]
  {
  }

  /** The raw-versus-normalised quirk: a tag typed as `x` whose normalised
      form already has a row, while `x` itself has none, makes `save` insert
      a duplicate row and fail, so the whole request is rolled back. */
  lemma RawTagSpellingClash(tags: map<string, int>, x: string)
    requires Normalize(x) in tags && x !in tags
    ensures TagConflict(tags, [x])
  {
    var names := NormalizeAll([x]);
    assert names[0] == Normalize(x);
    assert ExistingTags(tags, [x]) == {};
  }

  /** Saving an entry with a single tag typed in a spelling that differs
      from its normalised form, when only the normalised form has a Tag
      row, fails: the request is answered as a title clash and nothing
      changes. */
  lemma EditWithRawSpellingRollsBack(db: Db, slug: string, form: Form, raw: string)
    requires form.tags == Some(raw)
    requires exists e :: e in db.entries && e.slug == slug
    requires form.title.GetOr("") != "" && form.content.GetOr("") != ""
    requires |raw| > 0 && !IsSpace(raw[0]) && !IsSpace(raw[|raw| - 1]) && !ContainsSeparator(raw)
    ensures Normalize(raw) in db.tags && raw !in db.tags ==> Edit(db, slug, form) == (db, TitleInUse)
  {
    if Normalize(raw) in db.tags && raw !in db.tags {
      assert FormTags(raw) == [raw] by {
        StripSpaceNoop(raw);
        SplitOnSeparatorWhole(raw);
      }
      RawTagSpellingClash(db.tags, raw);
    }
  }

  /** The tag "Announce" is such a spelling: it is stored as "announce". */
  lemma AnnounceNormalized(a: string)
    requires a == "Announce"
    ensures Normalize(a) == "announce" && a != Normalize(a)
  {
    var l := Lower(a);
    assert l == "announce" by {
      assert |l| == 8 && l[0] == 'a' && l[1] == 'n' && l[2] == 'n' && l[3] == 'o';
      assert l[4] == 'u' && l[5] == 'n' && l[6] == 'c' && l[7] == 'e';
    }
    assert Normalize(a) == l by {
      assert forall i :: 0 <= i < |a| ==> IsWordChar(a[i]);
      NormalizeWord(a);
    }
  }

  // ------------------------------------------------------ clean_querystring

  /** `querystring.pop(key, None)` for each key in turn. */
  function PopAll(m: map<string, string>, keys: seq<string>): (r: map<string, string>)
    ensures forall k :: k in r <==> k in m && k !in keys
    ensures forall k :: k in r ==> r[k] == m[k]
  {
    if |keys| == 0 then m
    else PopAll(m - {keys[0]}, keys[1..])
  }

  /** `clean_querystring(request_args, *keys_to_remove, **new_values)`
      before URL encoding (app.py:344-355): the current arguments without
      the removed keys, then overwritten by the new values. */
  function CleanQuerystring(args: map<string, string>, remove: seq<string>,
                            newValues: map<string, string>): (r: map<string, string>)
    ensures forall k :: k in r <==> k in newValues || (k in args && k !in remove)
    ensures forall k :: k in newValues ==> r[k] == newValues[k]
    ensures forall k :: k in r && k !in newValues ==> r[k] == args[k]
  {
    PopAll(args, remove) + newValues
  }

  /** Applying the filter a second time with the same arguments changes
      nothing. */
  lemma CleanQuerystringIdempotent(args: map<string, string>, remove: seq<string>,
                                   newValues: map<string, string>)
    ensures var once := CleanQuerystring(args, remove, newValues);
      CleanQuerystring(once, remove, newValues) == once
  {
  }

  /** The pagination use: replacing `page` keeps every other argument. */
  lemma CleanQuerystringKeepsOthers(args: map<string, string>, page: string)
    ensures CleanQuerystring(args, [], map["page" := page]) == args["page" := page]
  {
  }
}
